=== FILE: README.md ===
# cros_mark_as_stable, modelled in Dafny

`cros_mark_as_stable.py` promotes the live "9999" ebuild of each cros-workon
package to a numbered stable ebuild. It does this in five steps:

1. Pick one candidate ebuild per package directory.
2. Write the next revision from the 9999 ebuild, stamped with the upstream
   commit id.
3. Commit the result on a local `stabilizing_branch`.
4. When no package changed, delete that branch again.
5. Publish the branch later with a bounded number of push retries.

This project models the deterministic logic under those steps and proves
properties of it. The modules follow the program's structure:

- `Ebuild` (ebuild.dfy): the `EBuild` record. The path is split into
  category, package name and file name. The derived paths, the revision, the
  version and the package name are computed from those parts. The
  `is_workon`/`is_stable` flags come from the file's lines.
- `Candidates` (candidates.dfy): `BestEBuild`, the per-directory decision of
  `_FindUprevCandidates`, and the package filter of `_BuildEBuildDictionary`.
  `Die` and `Warning` become a result value and a list of warnings. The scan
  receives the record constructor `EBuild(path)` as a parser of directory
  entries; `Candidates.EBuildOf(pkgsplit)` is that parser, built on
  `Ebuild.Parse`.
- `Marker` (marker.dfy): the line rewrite of `EBuildStableMarker.MarkAsStable`.
  Its lemmas speak first of the pieces handed to `write`, one or two per line
  read; `Marker.MarkFile` then joins them into the new file's text, and the
  file-level lemmas read that text back into lines.
- `Revision` (revision.dfy): `RevWorkOnEBuild`. It covers the new path, the
  9999 source, the diff decision and the git actions that follow. It works
  over a map from path to lines.
- `Branch` (branch.dfy): the `GitBranch` state machine over an abstract
  repository (local branches, remote refs, checked-out branch), and
  `_CheckOnStabilizingBranch`.
- `Publish` (publish.dfy): the retry loop of `PushChange`. The success of each
  attempt is an input.
- `Overlay` (overlay.dfy): the `commit` command for one overlay in `main`,
  `_CheckSaneArguments`, and the source-directory and project-name logic of
  `GetCommitId`.
- `Filters` (filters.dfy): a reference definition of filtering. `Where(s, p)`
  lists the indices of the elements that pass `p`, in increasing order, and
  `Picks`/`Matches` say that a result holds the elements at those indices, in
  order. The order lemmas of the filters in `Text`, `Candidates` and
  `Overlay` are stated against it.
- `Text`, `Decimal`, `Paths`, `Wrappers`: the Python string, integer and path
  operations the core relies on. These are `str.startswith`/`endswith`, `in`,
  `replace`, `rstrip`, `int()`, `%d`, `rsplit('/', 3)`, `os.path.dirname`,
  `os.path.join`, and iterating over a text file's lines (each keeps its
  "\n", a last line without one is yielded as it stands).

External behaviour is passed in as parameters, and the lemmas assume only
what they need of it:

- Portage's `pkgsplit` is a function parameter (`Ebuild.Splitter`).
- `vercmp` is a comparator parameter (`Candidates.Comparator`). The lemmas
  about the newest ebuild assume it is a total preorder.
- `diff -Bu` is an abstract equivalence of two line sequences
  (`Revision.DiffEquivalent`). Plain equality would be wrong, because `-B`
  ignores blank-line changes.
- `os.path.islink` is a flag on each file entry, and `os.path.isdir` is a
  predicate parameter.
- The outputs of the git commands are parameters. `GetCommitId`'s two git
  commands may also fail: a non-zero exit is `None`, and it stops the run
  with `Ebuild.CommandFailed`, as `_SimpleRunCommand`'s `CalledProcessError`
  does.
- `Branch.Checkout`, `Branch.CheckoutNew` and `Branch.DeleteRef` model what
  `git checkout`, `git checkout -b` and `git branch -D` do to the repository.
  Their contracts state those git semantics as the model's assumptions; they
  are not derived from git itself.
- The loop of the `commit` command takes the promotion of one candidate as a
  function (`Overlay.Promoter`). `Overlay.CommitOverlay` passes
  `RevWorkOnEBuild` (`Overlay.RevWith`).

A directory without cros-workon ebuilds yields no candidate, even when it
holds stable ebuilds: the stable and unstable lists are filled only from
cros-workon ebuilds (cros_mark_as_stable.py:110-115 and 139-142). See
`Candidates.NonWorkonDirectoryHasNoCandidate`.

## Model

| member | source | states |
|---|---|---|
| Text.ContainsIff | cros_mark_as_stable.py:336 | the substring test `sub in s` holds exactly when `sub` occurs at some position of `s` |
| Text.RemoveCharSpec | cros_mark_as_stable.py:421 | `line.replace('~', '')` leaves no `~`, keeps every character other than `~` that occurs in the line and adds none, and is the identity on a line without `~` |
| Text.RemoveCharInOrder | cros_mark_as_stable.py:421 | `line.replace('~', '')` keeps exactly the characters other than `~`, in order and with their multiplicity: its k-th character is the k-th non-`~` character of the line |
| Text.RemoveTrailing | cros_mark_as_stable.py:321 | removing ".ebuild" from a stem that does not contain it, followed by ".ebuild", gives back the stem |
| Text.RStrip | cros_mark_as_stable.py:376 | `rstrip()` yields a prefix without trailing whitespace, and what it removes is all whitespace |
| Decimal.FromNat | cros_mark_as_stable.py:453-455 | `%d` of a revision is a non-empty string of digits without a leading zero |
| Decimal.Parse | cros_mark_as_stable.py:327 | `int()` of a revision string succeeds exactly on non-empty digit strings |
| Decimal.ParseFromNat | cros_mark_as_stable.py:327 | `int()` reads back the number `%d` printed |
| Decimal.FromNatInjective | cros_mark_as_stable.py:453-460 | different revisions print differently, so new ebuild names do not collide |
| Paths.RSplit3 | cros_mark_as_stable.py:319 | `rsplit('/', 3)` into four parts rebuilds the path, and the last three parts contain no '/' |
| Paths.RSplit3OfJoin | cros_mark_as_stable.py:319 | a path `unused/category/pkgname/file` is split back into exactly those parts |
| Paths.DirNameOfJoin | cros_mark_as_stable.py:323-324 | `os.path.dirname` of `dir/name/file` is `dir/name` |
| Ebuild.ScanFlags | cros_mark_as_stable.py:335-340 | `is_workon` holds iff some line starts with "inherit " and contains "cros-workon"; `is_stable` holds iff some line starts with "KEYWORDS=", has no '~' and names amd64, x86 or arm |
| Ebuild.Parse | cros_mark_as_stable.py:316-341 | the record keeps the path; category and package name are the last two directories; `package` is category + "/" + pkgname; both flags are as above; it fails with the split error exactly when `rsplit('/', 3)` yields fewer than four parts |
| Ebuild.ParseStableFileName | cros_mark_as_stable.py:319-329 | a file `pkgname-version-rN.ebuild` parses to its category, package name, package, revision N, version "version-rN" and both derived paths |
| Ebuild.ParsedPathShape | cros_mark_as_stable.py:319-324 | a parsed path is `unused/category/pkgname/filename` with no '/' in the file name, and `ebuild_path_no_version` is `unused/category/pkgname/pkgname` |
| Candidates.BestEBuild | cros_mark_as_stable.py:61-68 | the winner is an element of the list, and no later element is strictly newer than it |
| Candidates.BestFromIsEarliestMaximum | cros_mark_as_stable.py:64-67 | the loop keeps the first element that no other element beats: every element before it is strictly older |
| Candidates.BestEBuildIsNewest | cros_mark_as_stable.py:61-68 | under a total preorder no element of the list is newer than the winner, and on ties the earliest one wins |
| Candidates.EbuildFiles | cros_mark_as_stable.py:107-108 | the entries parsed are exactly the non-symlink entries whose name ends in ".ebuild" |
| Candidates.EbuildFilesInOrder | cros_mark_as_stable.py:107-108 | the entries parsed are the non-symlink ".ebuild" entries in walk order, with their multiplicity: the k-th one parsed is the k-th such entry |
| Candidates.ParseAll | cros_mark_as_stable.py:107-109 | parsing the directory succeeds iff every non-symlink ".ebuild" entry parses, giving one record per such entry; a failure is an `Unparsable` error |
| Candidates.ParseAllInOrder | cros_mark_as_stable.py:107-109 | the k-th record is the parse of the k-th non-symlink ".ebuild" entry |
| Candidates.ParseAllFrom | cros_mark_as_stable.py:107-109 | parsing the entries from any position on yields, in order, exactly the parses of the non-symlink ".ebuild" entries at those positions |
| Candidates.ParseAllFailsAtFirst | cros_mark_as_stable.py:107-109 | a failure names the first ".ebuild" entry that does not parse and carries its parse error; every earlier entry parsed |
| Candidates.RecordsComeFromFiles | cros_mark_as_stable.py:107-109 | every record is the parse of one of the directory's non-symlink ".ebuild" entries |
| Candidates.StableWorkon | cros_mark_as_stable.py:110-113 | `stable_ebuilds` holds exactly the cros-workon ebuilds that are stable |
| Candidates.UnstableWorkon | cros_mark_as_stable.py:110-115 | `unstable_ebuilds` holds exactly the cros-workon ebuilds that are not stable |
| Candidates.StableWorkonInOrder | cros_mark_as_stable.py:110-113 | `stable_ebuilds` keeps the stable cros-workon ebuilds in the order parsed, with their multiplicity |
| Candidates.UnstableWorkonInOrder | cros_mark_as_stable.py:110-115 | `unstable_ebuilds` keeps the 9999 cros-workon ebuilds in the order parsed, with their multiplicity, so its length counts them |
| Candidates.NoWorkonNoCandidates | cros_mark_as_stable.py:110-115 | without a cros-workon ebuild both lists stay empty |
| Candidates.Decide | cros_mark_as_stable.py:118-142 | no candidate iff not a workon dir; dies iff a workon dir has no 9999 ebuild or several of them, with those messages; a stable candidate is the best stable ebuild; the 9999 ebuild is chosen iff there is no stable one, with the "Missing stable ebuild" warning; the "multiple stable" warning appears iff there are several stable ebuilds, at most one unstable one, and the winner is not x11-drivers/xf86-video-msm |
| Candidates.FindUprevCandidates | cros_mark_as_stable.py:94-142 | a returned candidate is a cros-workon ebuild among the directory's records; a parse failure gives no warnings |
| Candidates.CandidateComesFromFile | cros_mark_as_stable.py:107-142 | the candidate is the parse of one of the directory's non-symlink ".ebuild" entries |
| Candidates.GatherScans | cros_mark_as_stable.py:155-164 | gathering over the directories' scans succeeds iff every scan does; it keeps at most one candidate per directory, each passing the filter `all or package in packages` and being the candidate of some directory; every candidate that passes the filter is kept; on success the warnings are those of all scans in walk order, and on failure the error is that of the first fatal scan, every earlier scan got through, and the warnings are those of the scans up to and including the fatal one |
| Candidates.Gather | cros_mark_as_stable.py:155-164 | gathering succeeds iff every directory's scan does; each kept candidate is a cros-workon ebuild that passes the filter `all or package in packages` and is the candidate of one of the walked directories; every candidate that passes the filter is kept; the warnings are those printed by all directories' scans in walk order, or on failure by the scans up to and including the first fatal one, whose error is the result |
| Candidates.GatherScansKeepsSelected | cros_mark_as_stable.py:155-164 | when no scan is fatal, the k-th kept candidate is the candidate of the k-th scan that passes the filter: the candidates that pass, in walk order, one per directory |
| Candidates.GatherKeepsSelected | cros_mark_as_stable.py:155-164 | the same over the walked directories: the k-th kept candidate is the one found in the k-th directory whose candidate passes the filter |
| Candidates.GatherAllKeepsEveryCandidate | cros_mark_as_stable.py:159-164 | with `--all`, when every directory has a candidate, all of them are kept, one per directory in walk order |
| Candidates.NonWorkonDirectoryHasNoCandidate | cros_mark_as_stable.py:139-142 | a directory with no cros-workon ebuild yields no candidate and no warning, even when it has stable ebuilds |
| Candidates.LiveAndStableChoosesStable | cros_mark_as_stable.py:133-140 | one 9999 ebuild and one stable ebuild: the stable one is chosen, with no warning |
| Candidates.LiveOnlyChoosesLive | cros_mark_as_stable.py:133-137 | a 9999 ebuild with no stable ebuild is chosen, with the single warning "Missing stable ebuild in <dir>" |
| Candidates.SeveralStableChoosesNewest | cros_mark_as_stable.py:121-131 | several stable ebuilds: the candidate is a stable ebuild no other stable one is newer than; it warns unless the package is x11-drivers/xf86-video-msm |
| Marker.MarkAsStable | cros_mark_as_stable.py:414-429 | the rewrite adds at most one line per input line, and none when the keyword or value is empty |
| Marker.MarkAsStableAppend | cros_mark_as_stable.py:415-429 | the rewrite works line by line: rewriting a concatenation is concatenating the rewrites |
| Marker.StripTildes | cros_mark_as_stable.py:419-421 | a rewritten KEYWORDS line still starts with KEYWORDS, has no '~', and is not changed by a second rewrite |
| Marker.RewriteLineStable | cros_mark_as_stable.py:419-429 | rewriting the output of one line's rewrite changes nothing |
| Marker.MarkAsStableIdempotent | cros_mark_as_stable.py:419-429 | rewriting the written pieces (one per `write` call) again with the same keyword and value gives the same pieces; Marker.MarkFileIdempotent carries this to the file's text |
| Marker.CountPrefixedAppend | cros_mark_as_stable.py:415-429 | line counts by prefix add up over concatenation |
| Marker.RewriteLineCount | cros_mark_as_stable.py:419-428 | one input line yields a `keyword=` line exactly when it is an EAPI line and the value is non-empty; an old commit id line yields none |
| Marker.CommitLineCount | cros_mark_as_stable.py:422-429 | among the written pieces, as many start with the keyword as the input has EAPI lines when the value is non-empty, and none otherwise; Marker.MarkFileRewritesLines carries this to the file's lines |
| Marker.CommitLinesFollowEapi | cros_mark_as_stable.py:422-426 | every written piece starting with the keyword is `keyword="value"` and comes right after an EAPI line; Marker.MarkFileRewritesLines carries this to the file's lines |
| Marker.ReplacesCommitId | cros_mark_as_stable.py:422-428 | with one EAPI line, exactly one written piece is a `keyword=` line, the new `keyword="value"` one, and old definitions of the keyword are gone |
| Marker.RewriteLineOthers | cros_mark_as_stable.py:419-429 | apart from `keyword=` lines, one line's rewrite is the line itself, with '~' removed from a KEYWORDS line, and nothing for an old commit id line |
| Marker.OtherLinesPassThrough | cros_mark_as_stable.py:419-429 | the written pieces that do not start with the keyword are the input lines that do not, in order, with '~' removed from KEYWORDS lines and unchanged otherwise; Marker.MarkFileRewritesLines carries this to the file's lines |
| Marker.KeywordsLinesStable | cros_mark_as_stable.py:419-421 | no KEYWORDS line of the output contains '~' |
| Text.LineLength | cros_mark_as_stable.py:415 | the first line read from a non-empty text is non-empty and ends at the text's first "\n", or at the end of the text when it holds none |
| Text.ConcatSplit | cros_mark_as_stable.py:415 | the lines `fileinput` yields, written back one after another, give the file's text back |
| Text.SplitConcat | cros_mark_as_stable.py:415-429 | complete lines written one after another are read back as the same lines |
| Text.SplitLinesTerminated | cros_mark_as_stable.py:415 | every line read from a file ends in "\n" exactly when the file is empty or ends in "\n" |
| Text.RemoveCharAppend | cros_mark_as_stable.py:421 | `replace` of one character works piece by piece over a concatenation |
| Text.RemoveCharLine | cros_mark_as_stable.py:421 | removing '~' from a complete line leaves a complete line |
| Marker.CommitLineIsLine | cros_mark_as_stable.py:426 | `'%s="%s"\n' % (keyword, value)` is one complete line when neither part holds a "\n" |
| Marker.RewriteLineTerminated | cros_mark_as_stable.py:419-428 | a complete input line is written as complete lines |
| Marker.MarkAsStableTerminated | cros_mark_as_stable.py:415-429 | complete input lines are written as complete lines |
| Marker.MarkFileLines | cros_mark_as_stable.py:414-429 | when the copied ebuild ends in "\n" and neither keyword nor value holds one, the new file's lines are exactly the pieces written, and the new file ends in "\n" |
| Marker.MarkFileIdempotent | cros_mark_as_stable.py:414-429 | under the same conditions, marking the new file again with the same keyword and value gives the same text |
| Marker.MarkFileRewritesLines | cros_mark_as_stable.py:414-429 | under the same conditions, the new file's lines hold one `keyword="value"` line per EAPI line (none without a value), each right after an EAPI line; every other line comes through in order, '~' removed from KEYWORDS lines; no KEYWORDS line keeps a '~' |
| Marker.GluedCommitLine | cros_mark_as_stable.py:422-426 | a copied ebuild that is one EAPI line without "\n" gets the commit id glued onto it: the new file is one line that does not start with the keyword |
| Revision.NewStablePath | cros_mark_as_stable.py:452-460 | the new path starts with `ebuild_path_no_revision-` for a stable candidate, or with `ebuild_path_no_version-0.0.1-` otherwise, ends in "r<revision+1>.ebuild", and is exactly as long as those two parts together, so it is their concatenation |
| Revision.RevWorkOnEBuild | cros_mark_as_stable.py:452-485 | dies iff the 9999 ebuild is missing, with that message; reports a change iff the candidate and the rewritten 9999 ebuild are not diff-equivalent; without a change it deletes the new file and stages nothing; with a change it stages an add of the new file, plus a removal of the candidate when it is stable, and writes the rewritten content; every other file is untouched |
| Revision.NewPathIsNotLive | cros_mark_as_stable.py:452-464 | the new stable path is never a 9999 ebuild path, so promotion never overwrites its own source |
| Revision.RepromoteIsNoChange | cros_mark_as_stable.py:471-476 | promoting the freshly written ebuild again with the same commit id reports no change and stages nothing |
| Revision.PromotedFileParsesBack | cros_mark_as_stable.py:452-460 | the new stable file parses back to the same package, category, package name and directory, with the revision increased by one |
| Branch.Checkout | cros_mark_as_stable.py:293-295 | (assumed git semantics) `git checkout target` succeeds iff target is a ref, and then only the current branch changes |
| Branch.CheckoutNew | cros_mark_as_stable.py:291-292 | (assumed git semantics) `git checkout -b name start` succeeds iff name is new and start is a ref; it adds name, starting at start, and checks it out |
| Branch.DeleteRef | cros_mark_as_stable.py:309-310 | (assumed git semantics) `git branch -D name` succeeds iff name exists and is not checked out, and removes only name |
| Branch.Delete | cros_mark_as_stable.py:303-310 | `Delete()` succeeds iff the tracking ref exists and name is a branch other than it; afterwards the tracking branch is checked out, name is gone, and other branches and their start points are unchanged |
| Branch.CreateBranch | cros_mark_as_stable.py:283-287 | `CreateBranch()` succeeds iff the tracking ref exists and it is not itself a branch of that name; afterwards name exists, is checked out, was started from the tracking branch, and the branch set gained only name |
| Branch.CreateThenDelete | cros_mark_as_stable.py:283-310 | creating then deleting the branch leaves the other branches, with the tracking branch checked out |
| Branch.CreateBranchTwice | cros_mark_as_stable.py:283-287 | creating the branch again replaces it with an identical one |
| Publish.Description | cros_mark_as_stable.py:246-248 | the squash commit's message is the header "Marking set of ebuilds as stable", a blank line, and then the log of the batch |
| Publish.RetryWarnings | cros_mark_as_stable.py:268-270 | the k-th retry warning reads "Failed to push change, performing retry (k+1/5)" |
| Publish.PushChange | cros_mark_as_stable.py:239-272 | nothing is pushed iff the stabilizing branch is not checked out; otherwise at most 6 attempts are made, stopping at the first one that gets through, with one retry warning per earlier failed attempt; the push is a dry run iff asked; when all 6 fail the error is raised after 5 warnings |
| Publish.FirstSuccess | cros_mark_as_stable.py:251-266 | the index of the first attempt that gets through, with every earlier attempt failed |
| Publish.PushAttempts | cros_mark_as_stable.py:251-272 | the number of attempts is one past the first success, or all six, or none off the branch |
| Overlay.CheckSaneArguments | cros_mark_as_stable.py:173-182 | the arguments are accepted iff the command is clean, commit or push, a commit names packages or `--all` and a board, and srcroot is a directory; otherwise it returns the first failing check's message: "<command> is not a valid command", "Please specify at least one package", "Please specify a board", or "srcroot is not a valid path" |
| Overlay.SourceDir | cros_mark_as_stable.py:354-368 | the sources are under platform/ for chromeos-base and third_party/ otherwise; for subdir "kernel/" it falls back to third_party/kernel/files; the result is a directory, or none exists |
| Overlay.CommitId | cros_mark_as_stable.py:354-385 | dies without a source directory; stops with the failed command when `git config --get remote.cros.projectname` exits non-zero, before the project check; dies on a project-name mismatch (the name "chromeos-kernel" is always accepted); stops with the failed command when `git rev-parse HEAD` exits non-zero; dies on its empty output; otherwise returns that output right-stripped |
| Overlay.KernelNeedsProjectName | cros_mark_as_stable.py:375-377 | the "chromeos-kernel" exemption does not cover an unset project name: the failing `git config` stops the run first |
| Overlay.Commits | cros_mark_as_stable.py:557-560 | the commits are exactly the ones made, and there are no more of them than steps |
| Overlay.CommitsInOrder | cros_mark_as_stable.py:557-560 | the k-th commit is the one made at the k-th step that made one, so the commits keep the candidates' order, each once |
| Overlay.RevAll | cros_mark_as_stable.py:552-566 | one step per candidate, in order; a failed commit id lookup stops the loop; each commit belongs to its candidate's package and commit id and carries the message "Marking 9999 ebuild for <package> with commit <id> as stable."; with a promotion that stages the new stable ebuild first when it reports a change, so does every commit |
| Overlay.RevWithStagesNewEbuild | cros_mark_as_stable.py:552-560 | the promotion the command uses, `RevWorkOnEBuild`, stages the new stable ebuild first whenever it reports a change |
| Overlay.RevAllFollowsPromotions | cros_mark_as_stable.py:552-566 | the loop agrees with the promotions applied one after another, each on the files the previous one left: it gets through iff every promotion does, ends with the files the last one left, and commits candidate i exactly when promotion i reports a change, staging what that promotion staged |
| Overlay.CommitsAreChanges | cros_mark_as_stable.py:552-566 | the commits are the promotions that changed an ebuild, in candidate order: the k-th commit has the package and commit id of the k-th candidate whose promotion changed its ebuild, and that promotion's staged actions; there is a commit iff some promotion changed an ebuild |
| Overlay.RevAllCommitsChanges | cros_mark_as_stable.py:552-566 | the same for the commits of a loop that got through |
| Overlay.CommitsComeFromCandidates | cros_mark_as_stable.py:557-560 | every commit made carries the message for its package and commit id, and promotes one of the candidates to the commit id found for it |
| Overlay.RevAllSucceeds | cros_mark_as_stable.py:552-566 | the loop gets through all candidates when every commit id is found, every 9999 ebuild exists, and no stable candidate is itself a 9999 ebuild |
| Overlay.CommitOverlay | cros_mark_as_stable.py:544-571 | with no candidates nothing happens; otherwise the stabilizing branch is created from the tracking branch; the revved list is the packages of the commits, in order; when it is non-empty the stale packages are cleaned and the stabilizing branch stays checked out; when it is empty the branch is deleted and the tracking branch is checked out |
| Overlay.CommitOverlayFollowsPromotions | cros_mark_as_stable.py:544-571 | a successful commit run records the loop's commits, which are the changed promotions in candidate order, and the files the last promotion left; it cleans up the stale packages iff some promotion changed an ebuild |
| Overlay.CommitOverlaySucceeds | cros_mark_as_stable.py:544-571 | once the branch is created and every candidate is promoted, the command succeeds: the "Unable to create stabilizing branch" check cannot fire and deleting the branch cannot fail |
| Overlay.CommitThenPush | cros_mark_as_stable.py:540-571 | a push after a commit run finds work exactly when some package was revved |

## Left out

- Shell commands (`_SimpleRunCommand`, `RunCommand`, git, emerge, eclean) are not executed. Their outputs are parameters, and their effects are abstract repository or file-map updates.
- `os.walk`, `os.path.islink`, `os.path.isdir` and `os.path.exists` are inputs: a directory is a list of file entries with a symlink flag, and existence means membership in the file map.
- Portage's `pkgsplit` and `vercmp` are parameters, since they belong to the package manager. Only a total preorder on `vercmp` is assumed.
- `diff -Bu` is an abstract equivalence, because its output is external. Only reflexivity is assumed, and only where it is needed.
- Revision.RevWorkOnEBuild: `git add` and `git rm` (cros_mark_as_stable.py:479, 483) are assumed to exit 0. The model records them as staged operations and does not represent the `CalledProcessError` a failing one raises.
- Overlay.RevAll: the `git commit -am` of each changed candidate (cros_mark_as_stable.py:497) is assumed to exit 0. A step that made a commit records it and does not represent the `CalledProcessError` a failing commit raises.
- `GetCommitId`'s shell `eval` of the `CROS_WORKON_*` variables is not modelled, because it is a subprocess. Overlay.CommitId takes the project and subdirectory it prints, and assumes that output splits into exactly two words.
- gflags parsing, the `_PrintUsageAndDie` usage text, the default overlay paths and the `abspath` of srcroot are not modelled; they are command-line handling and presentation. The texts of the `Warning` calls are modelled as lists (in the directory scan, in Candidates.GatherScans/Gather and in Publish.PushChange); printing them is not, and neither are the `Info` and `_Print` progress messages.
- `Clean` and the overlay loop of `main` over several overlays are not modelled; they are sequences of shell commands. Overlay.CommitOverlay models one overlay's `commit` branch.
- Publish.PushChange treats each attempt as one outcome. The individual commands inside an attempt are not modelled, and neither is the merge branch they create. `Die` inside the attempt is caught by the bare `except:`; that interplay with `cros_build_lib` is not modelled.
- The `(OSError, IOError)` handler in `main` only warns and re-raises. The model stops at the first failure without that warning.
- `os.chdir` into the overlay is not modelled: it is process-wide state, and the model's repository and files already belong to one overlay.
- Ebuild.Parse reads the revision with `int()` on digit strings only. Python's `int()` also accepts signs and surrounding whitespace; `pkgsplit` never produces those.
- Branch.OnBranch compares the checked-out branch name directly. It does not model `git branch | grep '*'` output on a detached HEAD, or a branch named "*" matching the marker in `Exists`.
- Marker.MarkAsStableIdempotent: speaks of the pieces passed to `write`, not of the new file's lines. They differ when the copied ebuild's last line lacks "\n" (Marker.GluedCommitLine) or when the keyword or value holds a "\n"; Marker.MarkFileIdempotent states the file-level property where they agree.
- Marker.CommitLineCount: speaks of the written pieces, not the new file's lines; the two differ under the same conditions, and Marker.MarkFileRewritesLines states the count for the file's lines where they agree.
- Marker.CommitLinesFollowEapi: speaks of the written pieces; a last EAPI line without "\n" glues the commit id onto it (Marker.GluedCommitLine), and a value holding "\n" splits it. Marker.MarkFileRewritesLines states the placement for the file's lines otherwise.
- Marker.ReplacesCommitId: speaks of the written pieces; when the only EAPI line is the last one and lacks "\n", the new file has no line starting with the keyword at all; Marker.GluedCommitLine shows it for a one-line ebuild.
- Marker.OtherLinesPassThrough: speaks of the written pieces; Marker.MarkFileRewritesLines states the pass-through for the file's lines when the copied ebuild ends in "\n" and neither keyword nor value holds one.
- Marker lemmas require the keyword to be prefix-incomparable with "KEYWORDS" and "EAPI". The program always passes "CROS_WORKON_COMMIT", which is.

=== FILE: branch.dfy ===
/**
 * The local git branch used for one batch of changes (`GitBranch` and
 * `_CheckOnStabilizingBranch`). The repository is abstracted to its local
 * branches, the remote-tracking refs, the checked-out branch, and the ref
 * each local branch was created from.
 */
module Branch {
  import opened Wrappers

  datatype Repo = Repo(branches: set<string>, remotes: set<string>, current: string, startPoint: map<string, string>)

  /** A git command that exits non-zero (`CalledProcessError`). */
  datatype GitError =
    | NoSuchRef(name: string)        // `git checkout <name>` of an unknown ref
    | AlreadyExists(name: string)    // `git checkout -b <name>` of an existing branch
    | CannotDelete(name: string)     // `git branch -D <name>`: missing or checked out

  /** A name `git checkout` accepts. */
  predicate IsRef(repo: Repo, name: string)
  {
    name in repo.branches || name in repo.remotes
  }

  /** `Exists()`: the branch is listed by `git branch`. */
  predicate Exists(repo: Repo, name: string)
  {
    name in repo.branches
  }

  /** `_CheckOnStabilizingBranch(name)`: the checked-out branch is `name`. */
  predicate OnBranch(repo: Repo, name: string)
  {
    repo.current == name
  }

  /** `git checkout <target>` */
  function Checkout(repo: Repo, target: string): (r: Result<Repo, GitError>)
    ensures r.Success? <==> IsRef(repo, target)
    ensures r.Success? ==> r.value == repo.(current := target)
  {
    if IsRef(repo, target) then Success(repo.(current := target)) else Failure(NoSuchRef(target))
  }

  /** `git checkout -b <name> <start>` */
  function CheckoutNew(repo: Repo, name: string, start: string): (r: Result<Repo, GitError>)
    ensures r.Success? <==> name !in repo.branches && IsRef(repo, start)
    ensures r.Success? ==>
      && r.value.branches == repo.branches + {name}
      && r.value.remotes == repo.remotes
      && r.value.current == name
      && r.value.startPoint == repo.startPoint[name := start]
  {
    if name in repo.branches then Failure(AlreadyExists(name))
    else if !IsRef(repo, start) then Failure(NoSuchRef(start))
    else Success(Repo(repo.branches + {name}, repo.remotes, name, repo.startPoint[name := start]))
  }

  /** `git branch -D <name>`: git refuses to delete a missing or checked-out branch. */
  function DeleteRef(repo: Repo, name: string): (r: Result<Repo, GitError>)
    ensures r.Success? <==> name in repo.branches && name != repo.current
    ensures r.Success? ==>
      && r.value.branches == repo.branches - {name}
      && r.value.current == repo.current
      && name !in r.value.startPoint
  {
    if name !in repo.branches || name == repo.current then Failure(CannotDelete(name))
    else Success(repo.(branches := repo.branches - {name}, startPoint := repo.startPoint - {name}))
  }

  /** `Delete()`: check out the tracking branch, then force-delete `name`. */
  function Delete(repo: Repo, name: string, tracking: string): (r: Result<Repo, GitError>)
    ensures r.Success? <==> IsRef(repo, tracking) && name in repo.branches && name != tracking
    ensures r.Success? ==>
      && OnBranch(r.value, tracking)
      && !Exists(r.value, name)
      && r.value.branches == repo.branches - {name}
      && r.value.remotes == repo.remotes
      && (forall b :: b in r.value.startPoint <==> b in repo.startPoint && b != name)
      && (forall b :: b in r.value.startPoint ==> r.value.startPoint[b] == repo.startPoint[b])
  {
    match Checkout(repo, tracking)
    case Failure(err) => Failure(err)
    case Success(onTracking) => DeleteRef(onTracking, name)
  }

  /**
   * `CreateBranch()`: delete a branch of the same name if there is one, then
   * create `name` from the tracking branch and check it out.
   */
  function CreateBranch(repo: Repo, name: string, tracking: string): (r: Result<Repo, GitError>)
    ensures r.Success? <==> IsRef(repo, tracking) && !(Exists(repo, name) && name == tracking)
    ensures r.Success? ==>
      && Exists(r.value, name)
      && OnBranch(r.value, name)
      && name in r.value.startPoint && r.value.startPoint[name] == tracking
      && r.value.branches == repo.branches + {name}
      && r.value.remotes == repo.remotes
  {
    if Exists(repo, name) then
      match Delete(repo, name, tracking)
      case Failure(err) => Failure(err)
      case Success(cleared) => CheckoutNew(cleared, name, tracking)
    else
      CheckoutNew(repo, name, tracking)
  }

  /**
   * Creating the batch branch and deleting it again leaves the other
   * branches as they were, with the tracking branch checked out.
   */
  lemma CreateThenDelete(repo: Repo, name: string, tracking: string)
    requires CreateBranch(repo, name, tracking).Success?
    requires name != tracking
    ensures var created := CreateBranch(repo, name, tracking).value;
      var r := Delete(created, name, tracking);
      && r.Success?
      && r.value.branches == repo.branches - {name}
      && OnBranch(r.value, tracking)
  {
  }

  /** Creating the branch twice in a row gives the same repository: the stale branch is replaced. */
  lemma CreateBranchTwice(repo: Repo, name: string, tracking: string)
    requires CreateBranch(repo, name, tracking).Success?
    requires name != tracking
    ensures var once := CreateBranch(repo, name, tracking).value;
      CreateBranch(once, name, tracking) == Success(once)
  {
    var once := CreateBranch(repo, name, tracking).value;
    var cleared := Delete(once, name, tracking).value;
    assert cleared.startPoint[name := tracking] == once.startPoint;
    assert (cleared.branches + {name}) == once.branches;
  }
}

=== FILE: candidates.dfy ===
/**
 * Choosing the uprev candidate of one package directory
 * (`BestEBuild`, `_FindUprevCandidates` and the package filter of
 * `_BuildEBuildDictionary`).
 */
module Candidates {
  import opened Wrappers
  import opened Text
  import Paths
  import opened Ebuild
  import opened Filters

  /** `portage.versions.vercmp`: negative when the first version is older. */
  type Comparator = (string, string) -> int

  /** `vercmp(a.version, b.version) < 0`: `a` is strictly older than `b`. */
  predicate Older(cmp: Comparator, a: EBuild, b: EBuild)
  {
    cmp(a.version, b.version) < 0
  }

  /**
   * What the lemmas assume of `vercmp`: "not older than" is a total
   * preorder on version strings (reflexive, transitive, total).
   */
  ghost predicate TotalPreorder(cmp: Comparator)
  {
    && (forall a :: cmp(a, a) >= 0)
    && (forall a, b, c {:trigger cmp(a, b), cmp(b, c), cmp(a, c)} :: cmp(a, b) >= 0 && cmp(b, c) >= 0 ==> cmp(a, c) >= 0)
    && (forall a, b {:trigger cmp(a, b), cmp(b, a)} :: cmp(a, b) >= 0 || cmp(b, a) >= 0)
  }

  /**
   * The loop of `BestEBuild` from position `i` on, with the winner so far at
   * index `w`: a later ebuild replaces the winner only when the winner is
   * strictly older. Returns the index of the final winner.
   */
  function BestFrom(es: seq<EBuild>, cmp: Comparator, w: nat, i: nat): (k: nat)
    requires w < i <= |es|
    requires forall j :: w < j < i ==> !Older(cmp, es[w], es[j])
    ensures w <= k < |es| && (k == w || i <= k)
    ensures forall j :: k < j < |es| ==> !Older(cmp, es[k], es[j])
    decreases |es| - i
  {
    if i == |es| then w
    else if Older(cmp, es[w], es[i]) then BestFrom(es, cmp, i, i + 1)
    else BestFrom(es, cmp, w, i + 1)
  }

  function BestIndex(es: seq<EBuild>, cmp: Comparator): (k: nat)
    requires |es| > 0
    ensures k < |es|
    ensures forall j :: k < j < |es| ==> !Older(cmp, es[k], es[j])
  {
    BestFrom(es, cmp, 0, 1)
  }

  /** `BestEBuild(ebuilds)`: the newest ebuild of a non-empty list. */
  function BestEBuild(es: seq<EBuild>, cmp: Comparator): (b: EBuild)
    requires |es| > 0
    ensures b in es
    ensures forall j :: BestIndex(es, cmp) < j < |es| ==> !Older(cmp, b, es[j])
  {
    es[BestIndex(es, cmp)]
  }

  /** Under a total preorder "older" is transitive. */
  lemma OlderTransitive(cmp: Comparator, a: EBuild, b: EBuild, c: EBuild)
    requires TotalPreorder(cmp)
    requires Older(cmp, a, b) && Older(cmp, b, c)
    ensures Older(cmp, a, c)
  {
    assert cmp(c.version, b.version) >= 0;
  }

  /** Under a total preorder, if `a` is not older than `b` but is older than `c`, then `b` is older than `c`. */
  lemma OlderPastNotOlder(cmp: Comparator, a: EBuild, b: EBuild, c: EBuild)
    requires TotalPreorder(cmp)
    requires !Older(cmp, a, b) && Older(cmp, a, c)
    ensures Older(cmp, b, c)
  {
  }

  lemma {:induction false} BestFromIsEarliestMaximum(es: seq<EBuild>, cmp: Comparator, w: nat, i: nat)
    requires TotalPreorder(cmp)
    requires w < i <= |es|
    requires forall j :: w < j < i ==> !Older(cmp, es[w], es[j])
    requires forall j :: 0 <= j < w ==> Older(cmp, es[j], es[w])
    ensures var k := BestFrom(es, cmp, w, i);
      forall j :: 0 <= j < k ==> Older(cmp, es[j], es[k])
    decreases |es| - i
  {
    if i < |es| {
      if Older(cmp, es[w], es[i]) {
        forall j | 0 <= j < i
          ensures Older(cmp, es[j], es[i])
        {
          if j < w {
            OlderTransitive(cmp, es[j], es[w], es[i]);
          } else if w < j {
            OlderPastNotOlder(cmp, es[w], es[j], es[i]);
          }
        }
        BestFromIsEarliestMaximum(es, cmp, i, i + 1);
        assert BestFrom(es, cmp, w, i) == BestFrom(es, cmp, i, i + 1);
      } else {
        BestFromIsEarliestMaximum(es, cmp, w, i + 1);
        assert BestFrom(es, cmp, w, i) == BestFrom(es, cmp, w, i + 1);
      }
    } else {
      assert BestFrom(es, cmp, w, i) == w;
    }
  }

  /**
   * Under a total preorder, `BestEBuild` returns a newest ebuild, and on ties
   * the earliest one: every ebuild before it is strictly older.
   */
  lemma BestEBuildIsNewest(es: seq<EBuild>, cmp: Comparator)
    requires TotalPreorder(cmp)
    requires |es| > 0
    ensures forall e :: e in es ==> !Older(cmp, BestEBuild(es, cmp), e)
    ensures forall j :: 0 <= j < BestIndex(es, cmp) ==> Older(cmp, es[j], BestEBuild(es, cmp))
  {
    BestFromIsEarliestMaximum(es, cmp, 0, 1);
    var k := BestIndex(es, cmp);
    forall e | e in es
      ensures !Older(cmp, es[k], e)
    {
      var j :| 0 <= j < |es| && es[j] == e;
      if j < k {
        assert Older(cmp, es[j], es[k]);
      }
    }
  }

  /** One directory entry given to `_FindUprevCandidates`: its path, whether it is a symlink, its lines. */
  datatype FileEntry = FileEntry(path: string, isLink: bool, lines: seq<string>)

  /** The outcome of one directory and the warnings printed on the way. */
  datatype Scan = Scan(result: Result<Option<EBuild>, Fatal>, warnings: seq<string>)

  /** The package allowed several stable ebuilds without a warning. */
  const LegacyExemptPackage := "x11-drivers/xf86-video-msm"

  function MultipleUnstableMessage(dir: string): string { "Found multiple unstable ebuilds in " + dir }
  function MultipleStableMessage(dir: string): string { "Found multiple stable ebuilds in " + dir }
  function MissingUnstableMessage(dir: string): string { "Missing 9999 ebuild in " + dir }
  function MissingStableMessage(dir: string): string { "Missing stable ebuild in " + dir }

  /** Only regular files named `*.ebuild` are parsed. */
  predicate IsEbuildFile(f: FileEntry)
  {
    EndsWith(f.path, ".ebuild") && !f.isLink
  }

  /** How a directory entry becomes a record: `EBuild(path)`, or why it cannot. */
  type EntryParser = FileEntry -> Result<EBuild, ParseError>

  /** The record constructor `EBuild(path)` for a given `pkgsplit`. */
  function EBuildOf(pkgsplit: Splitter): EntryParser
  {
    (f: FileEntry) => Parse(f.path, f.lines, pkgsplit)
  }

  /** The entries `_FindUprevCandidates` parses, in order. */
  function EbuildFiles(files: seq<FileEntry>): (r: seq<FileEntry>)
    ensures |r| <= |files|
    ensures forall f :: f in r <==> f in files && IsEbuildFile(f)
  {
    if |files| == 0 then []
    else if IsEbuildFile(files[0]) then [files[0]] + EbuildFiles(files[1..])
    else EbuildFiles(files[1..])
  }

  /** The records of the ebuild files, in order, or the first parse failure. */
  function ParseAll(files: seq<FileEntry>, parse: EntryParser): (r: Result<seq<EBuild>, Fatal>)
    ensures r.Success? <==>
      forall f :: f in EbuildFiles(files) ==> parse(f).Success?
    ensures r.Success? ==> |r.value| == |EbuildFiles(files)|
    ensures r.Failure? ==> r.error.Unparsable?
    decreases |files|
  {
    if |files| == 0 then Success([])
    else
      var f := files[0];
      if !IsEbuildFile(f) then ParseAll(files[1..], parse)
      else match parse(f)
        case Failure(err) => Failure(Unparsable(f.path, err))
        case Success(e) =>
          match ParseAll(files[1..], parse)
          case Failure(err) => Failure(err)
          case Success(rest) => Success([e] + rest)
  }

  lemma {:induction false} EbuildFilesFrom(files: seq<FileEntry>, from: nat)
    requires from <= |files|
    ensures Picks(EbuildFiles(files[from..]), files, WhereFrom(files, IsEbuildFile, from))
    decreases |files| - from
  {
    if from < |files| {
      EbuildFilesFrom(files, from + 1);
      assert files[from..][1..] == files[from + 1..];
      PicksCons(files, IsEbuildFile, from, EbuildFiles(files[from + 1..]));
    }
  }

  /** `EbuildFiles` keeps exactly the non-symlink ".ebuild" entries, in order and with their multiplicity. */
  lemma EbuildFilesInOrder(files: seq<FileEntry>)
    ensures Picks(EbuildFiles(files), files, Where(files, IsEbuildFile))
  {
    EbuildFilesFrom(files, 0);
    assert files[0..] == files;
  }

  /** `f` parses to `e`. */
  function ParsesTo(parse: EntryParser): (FileEntry, EBuild) -> bool
  {
    (f: FileEntry, e: EBuild) => parse(f) == Success(e)
  }

  lemma {:induction false} ParseAllFrom(files: seq<FileEntry>, parse: EntryParser, from: nat)
    requires from <= |files|
    requires ParseAll(files[from..], parse).Success?
    ensures Matches(ParseAll(files[from..], parse).value, files, WhereFrom(files, IsEbuildFile, from), ParsesTo(parse))
    decreases |files| - from
  {
    if from < |files| {
      var f := files[from];
      assert files[from..][0] == f && files[from..][1..] == files[from + 1..];
      assert ParseAll(files[from + 1..], parse).Success?;
      ParseAllFrom(files, parse, from + 1);
      var rest := ParseAll(files[from + 1..], parse).value;
      var head := if IsEbuildFile(f) then [parse(f).value] else [];
      assert ParseAll(files[from..], parse).value == head + rest;
      MatchesCons(files, IsEbuildFile, from, head, rest, ParsesTo(parse));
    }
  }

  /** A successful `ParseAll` holds the record of each ebuild file, in order. */
  lemma ParseAllInOrder(files: seq<FileEntry>, parse: EntryParser)
    requires ParseAll(files, parse).Success?
    ensures var es := ParseAll(files, parse).value;
      && |es| == |EbuildFiles(files)|
      && forall i :: 0 <= i < |es| ==> parse(EbuildFiles(files)[i]) == Success(es[i])
  {
    assert files[0..] == files;
    ParseAllFrom(files, parse, 0);
    EbuildFilesInOrder(files);
    var es := ParseAll(files, parse).value;
    var idx := Where(files, IsEbuildFile);
    forall i | 0 <= i < |es|
      ensures parse(EbuildFiles(files)[i]) == Success(es[i])
    {
      assert ParsesTo(parse)(files[idx[i]], es[i]);
    }
  }

  /**
   * Entry `i` is the first of `fs` that does not parse, and `err` reports
   * its path and its parse error.
   */
  predicate FirstUnparsable(fs: seq<FileEntry>, parse: EntryParser, i: nat, err: Fatal)
  {
    && i < |fs|
    && parse(fs[i]).Failure?
    && (forall j :: 0 <= j < i ==> parse(fs[j]).Success?)
    && err == Unparsable(fs[i].path, parse(fs[i]).error)
  }

  /** `ParseAll` stops at a first ebuild file that does not parse. */
  lemma FirstFileUnparsable(files: seq<FileEntry>, parse: EntryParser)
    requires |files| > 0 && IsEbuildFile(files[0]) && parse(files[0]).Failure?
    ensures ParseAll(files, parse).Failure?
    ensures FirstUnparsable(EbuildFiles(files), parse, 0, ParseAll(files, parse).error)
  {
    assert EbuildFiles(files)[0] == files[0];
  }

  /** Past a first ebuild file that parses, the first failure moves one place on. */
  lemma LaterFileUnparsable(files: seq<FileEntry>, parse: EntryParser, i: nat)
    requires |files| > 0 && IsEbuildFile(files[0]) && parse(files[0]).Success?
    requires ParseAll(files[1..], parse).Failure?
    requires FirstUnparsable(EbuildFiles(files[1..]), parse, i, ParseAll(files[1..], parse).error)
    ensures ParseAll(files, parse).Failure?
    ensures FirstUnparsable(EbuildFiles(files), parse, i + 1, ParseAll(files, parse).error)
  {
    var fs := EbuildFiles(files);
    var tail := EbuildFiles(files[1..]);
    var err := ParseAll(files[1..], parse).error;
    assert ParseAll(files, parse) == Failure(err);
    assert fs == [files[0]] + tail;
    assert fs[i + 1] == tail[i];
    forall j | 1 <= j <= i
      ensures parse(fs[j]).Success?
    {
      assert fs[j] == tail[j - 1];
    }
    assert FirstUnparsable(fs, parse, i + 1, err);
  }

  /** A failed `ParseAll` reports the first ebuild file that does not parse, every earlier one having parsed. */
  lemma {:induction false} ParseAllFailsAtFirst(files: seq<FileEntry>, parse: EntryParser)
    requires ParseAll(files, parse).Failure?
    ensures exists i: nat :: FirstUnparsable(EbuildFiles(files), parse, i, ParseAll(files, parse).error)
    decreases |files|
  {
    if IsEbuildFile(files[0]) && parse(files[0]).Failure? {
      FirstFileUnparsable(files, parse);
    } else {
      ParseAllFailsAtFirst(files[1..], parse);
      var i: nat :| FirstUnparsable(EbuildFiles(files[1..]), parse, i, ParseAll(files[1..], parse).error);
      if IsEbuildFile(files[0]) {
        LaterFileUnparsable(files, parse, i);
      } else {
        assert EbuildFiles(files) == EbuildFiles(files[1..]) && ParseAll(files, parse) == ParseAll(files[1..], parse);
      }
    }
  }

  /** Every record comes from one of the ebuild files. */
  lemma {:induction false} RecordsComeFromFiles(files: seq<FileEntry>, parse: EntryParser, e: EBuild)
    requires ParseAll(files, parse).Success?
    requires e in ParseAll(files, parse).value
    ensures exists i :: 0 <= i < |files| && IsEbuildFile(files[i]) && parse(files[i]) == Success(e)
    decreases |files|
  {
    var f := files[0];
    var rest := ParseAll(files[1..], parse);
    if IsEbuildFile(f) && parse(f) == Success(e) {
      assert IsEbuildFile(files[0]) && parse(files[0]) == Success(e);
    } else {
      assert rest.Success? && e in rest.value by {
        if IsEbuildFile(f) {
          assert ParseAll(files, parse) == Success([parse(f).value] + rest.value);
        } else {
          assert ParseAll(files, parse) == rest;
        }
      }
      RecordsComeFromFiles(files[1..], parse, e);
      var i :| 0 <= i < |files[1..]| && IsEbuildFile(files[1..][i])
            && parse(files[1..][i]) == Success(e);
      assert files[1..][i] == files[i + 1];
    }
  }

  /** A stable cros-workon ebuild. */
  predicate IsStableWorkon(e: EBuild)
  {
    e.isWorkon && e.isStable
  }

  /** A cros-workon ebuild that is not stable (a 9999 ebuild). */
  predicate IsUnstableWorkon(e: EBuild)
  {
    e.isWorkon && !e.isStable
  }

  /** The cros-workon ebuilds that are stable (`stable_ebuilds`), in order. */
  function StableWorkon(es: seq<EBuild>): (r: seq<EBuild>)
    ensures forall e :: e in r <==> e in es && e.isWorkon && e.isStable
    ensures |r| <= |es|
    decreases |es|
  {
    if |es| == 0 then []
    else (if IsStableWorkon(es[0]) then [es[0]] else []) + StableWorkon(es[1..])
  }

  /** The cros-workon ebuilds that are not stable (`unstable_ebuilds`), in order. */
  function UnstableWorkon(es: seq<EBuild>): (r: seq<EBuild>)
    ensures forall e :: e in r <==> e in es && e.isWorkon && !e.isStable
    ensures |r| <= |es|
    decreases |es|
  {
    if |es| == 0 then []
    else (if IsUnstableWorkon(es[0]) then [es[0]] else []) + UnstableWorkon(es[1..])
  }

  lemma {:induction false} StableWorkonFrom(es: seq<EBuild>, from: nat)
    requires from <= |es|
    ensures Picks(StableWorkon(es[from..]), es, WhereFrom(es, IsStableWorkon, from))
    decreases |es| - from
  {
    if from < |es| {
      StableWorkonFrom(es, from + 1);
      assert es[from..][1..] == es[from + 1..];
      PicksCons(es, IsStableWorkon, from, StableWorkon(es[from + 1..]));
    }
  }

  /**
   * `StableWorkon` keeps exactly the stable cros-workon ebuilds, in order
   * and with their multiplicity: the `k`-th one kept is the `k`-th index
   * listed by `Where`.
   */
  lemma StableWorkonInOrder(es: seq<EBuild>)
    ensures Picks(StableWorkon(es), es, Where(es, IsStableWorkon))
  {
    StableWorkonFrom(es, 0);
    assert es[0..] == es;
  }

  lemma {:induction false} UnstableWorkonFrom(es: seq<EBuild>, from: nat)
    requires from <= |es|
    ensures Picks(UnstableWorkon(es[from..]), es, WhereFrom(es, IsUnstableWorkon, from))
    decreases |es| - from
  {
    if from < |es| {
      UnstableWorkonFrom(es, from + 1);
      assert es[from..][1..] == es[from + 1..];
      PicksCons(es, IsUnstableWorkon, from, UnstableWorkon(es[from + 1..]));
    }
  }

  /** `UnstableWorkon` keeps exactly the 9999 cros-workon ebuilds, in order and with their multiplicity. */
  lemma UnstableWorkonInOrder(es: seq<EBuild>)
    ensures Picks(UnstableWorkon(es), es, Where(es, IsUnstableWorkon))
  {
    UnstableWorkonFrom(es, 0);
    assert es[0..] == es;
  }

  /** Some ebuild of the directory inherits cros-workon (`workon_dir`). */
  predicate IsWorkonDir(es: seq<EBuild>)
  {
    exists e :: e in es && e.isWorkon
  }

  lemma {:induction false} NoWorkonNoCandidates(es: seq<EBuild>)
    requires !IsWorkonDir(es)
    ensures StableWorkon(es) == [] && UnstableWorkon(es) == []
    decreases |es|
  {
    if |es| > 0 {
      assert es[0] in es;
      assert forall e :: e in es[1..] ==> e in es;
      NoWorkonNoCandidates(es[1..]);
    }
  }

  /**
   * The sanity checks and the choice of `_FindUprevCandidates` over the
   * parsed ebuilds; `dir` names the directory in messages.
   */
  function Decide(es: seq<EBuild>, dir: string, cmp: Comparator): (s: Scan)
    ensures s.result == Success(None) <==> !IsWorkonDir(es)
    ensures s.result.Failure? <==> IsWorkonDir(es) && |UnstableWorkon(es)| != 1
    ensures |UnstableWorkon(es)| > 1 ==> s.result == Failure(Die(MultipleUnstableMessage(dir)))
    ensures IsWorkonDir(es) && |UnstableWorkon(es)| == 0 ==>
      s.result == Failure(Die(MissingUnstableMessage(dir)))
    ensures s.result.Success? && s.result.value.Some? ==>
      var c := s.result.value.value;
      && c in es && c.isWorkon
      && (c.isStable ==> c == BestEBuild(StableWorkon(es), cmp))
      && (!c.isStable <==> |StableWorkon(es)| == 0)
      && (!c.isStable ==> UnstableWorkon(es) == [c] && s.warnings == [MissingStableMessage(dir)])
    ensures MultipleStableMessage(dir) in s.warnings <==>
      && |UnstableWorkon(es)| <= 1
      && |StableWorkon(es)| > 1
      && BestEBuild(StableWorkon(es), cmp).package != LegacyExemptPackage
    ensures |s.warnings| <= 1
  {
    var stable := StableWorkon(es);
    var unstable := UnstableWorkon(es);
    if !IsWorkonDir(es) then
      NoWorkonNoCandidates(es);
      Scan(Success(None), [])
    else if |unstable| > 1 then
      Scan(Failure(Die(MultipleUnstableMessage(dir))), [])
    else
      var reduced := if |stable| > 1 then [BestEBuild(stable, cmp)] else stable;
      var warnings :=
        if |stable| > 1 && reduced[0].package != LegacyExemptPackage
        then [MultipleStableMessage(dir)] else [];
      if |unstable| == 0 then
        Scan(Failure(Die(MissingUnstableMessage(dir))), warnings)
      else if |reduced| == 0 then
        assert unstable == [unstable[0]];
        Scan(Success(Some(unstable[0])), warnings + [MissingStableMessage(dir)])
      else
        assert reduced[0] in stable;
        Scan(Success(Some(reduced[0])), warnings)
  }

  /** `os.path.dirname(path)` of the last entry (the loop variable after the loop). */
  function LastDir(files: seq<FileEntry>): string
  {
    if |files| == 0 then "" else Paths.DirName(files[|files| - 1].path)
  }

  /** `_FindUprevCandidates(files)` */
  function FindUprevCandidates(files: seq<FileEntry>, parse: EntryParser, cmp: Comparator): (s: Scan)
    ensures s.result.Failure? && s.result.error.Unparsable? ==> s.warnings == [] && ParseAll(files, parse).Failure?
    ensures s.result.Success? ==> ParseAll(files, parse).Success?
    ensures s.result.Success? && s.result.value.Some? ==>
      var c := s.result.value.value;
      c.isWorkon && c in ParseAll(files, parse).value
  {
    match ParseAll(files, parse)
    case Failure(err) => Scan(Failure(err), [])
    case Success(es) => Decide(es, LastDir(files), cmp)
  }

  /** A candidate is the record of one of the directory's non-symlink ".ebuild" files. */
  lemma CandidateComesFromFile(files: seq<FileEntry>, parse: EntryParser, cmp: Comparator)
    requires FindUprevCandidates(files, parse, cmp).result.Success?
    requires FindUprevCandidates(files, parse, cmp).result.value.Some?
    ensures var c := FindUprevCandidates(files, parse, cmp).result.value.value;
      exists i :: 0 <= i < |files| && IsEbuildFile(files[i]) && parse(files[i]) == Success(c)
  {
    RecordsComeFromFiles(files, parse, FindUprevCandidates(files, parse, cmp).result.value.value);
  }

  /** `ebuild and (all or ebuild.package in packages)` */
  predicate Selected(candidate: Option<EBuild>, all: bool, packages: seq<string>)
  {
    candidate.Some? && (all || candidate.value.package in packages)
  }

  /** The candidates of the directories of one overlay, in walk order. */
  datatype Gathered = Gathered(result: Result<seq<EBuild>, Fatal>, warnings: seq<string>)

  /** The scan of every directory of the walk, in walk order. */
  function ScanAll(dirs: seq<seq<FileEntry>>, parse: EntryParser, cmp: Comparator): (scans: seq<Scan>)
    ensures |scans| == |dirs|
    ensures forall i :: 0 <= i < |dirs| ==> scans[i] == FindUprevCandidates(dirs[i], parse, cmp)
  {
    seq(|dirs|, i requires 0 <= i < |dirs| => FindUprevCandidates(dirs[i], parse, cmp))
  }

  /** The warnings the scans print, in walk order. */
  function Warnings(scans: seq<Scan>): seq<string>
  {
    if |scans| == 0 then [] else scans[0].warnings + Warnings(scans[1..])
  }

  /**
   * Scan `i` is the first fatal one: it reports `err`, and `ws` are the
   * warnings printed up to and including it.
   */
  predicate StopsAt(scans: seq<Scan>, i: nat, err: Fatal, ws: seq<string>)
  {
    && i < |scans|
    && scans[i].result == Failure(err)
    && (forall j :: 0 <= j < i ==> scans[j].result.Success?)
    && ws == Warnings(scans[..i + 1])
  }

  /** A fatal first scan stops the gathering after its own warnings. */
  lemma StopsAtFirst(scans: seq<Scan>)
    requires |scans| > 0 && scans[0].result.Failure?
    ensures StopsAt(scans, 0, scans[0].result.error, scans[0].warnings)
  {
    assert scans[..1][1..] == [];
  }

  /** Past a first scan that got through, the gathering stops one place later, after that scan's warnings too. */
  lemma StopsLater(scans: seq<Scan>, err: Fatal, ws: seq<string>)
    requires |scans| > 0 && scans[0].result.Success?
    requires exists i: nat :: StopsAt(scans[1..], i, err, ws)
    ensures exists i: nat :: StopsAt(scans, i, err, scans[0].warnings + ws)
  {
    var i: nat :| StopsAt(scans[1..], i, err, ws);
    assert scans[..i + 2][1..] == scans[1..][..i + 1];
    forall j | 1 <= j <= i + 1
      ensures scans[j] == scans[1..][j - 1]
    {
    }
    assert StopsAt(scans, i + 1, err, scans[0].warnings + ws);
  }

  /**
   * The gathering loop of `_BuildEBuildDictionary` over the directories'
   * scans: a candidate is kept when it passes the package filter, and the
   * first fatal scan ends the gathering.
   */
  function GatherScans(scans: seq<Scan>, all: bool, packages: seq<string>): (g: Gathered)
    ensures g.result.Success? <==> forall i :: 0 <= i < |scans| ==> scans[i].result.Success?
    ensures g.result.Success? ==> |g.result.value| <= |scans|
    ensures g.result.Success? ==> forall e :: e in g.result.value ==>
      && (all || e.package in packages)
      && exists i :: 0 <= i < |scans| && scans[i].result == Success(Some(e))
    ensures g.result.Success? ==> forall i :: 0 <= i < |scans| && Selected(scans[i].result.value, all, packages) ==>
      scans[i].result.value.value in g.result.value
    ensures g.result.Success? ==> g.warnings == Warnings(scans)
    ensures g.result.Failure? ==> exists i: nat :: StopsAt(scans, i, g.result.error, g.warnings)
    decreases |scans|
  {
    if |scans| == 0 then Gathered(Success([]), [])
    else
      var s := scans[0];
      match s.result
      case Failure(err) =>
        StopsAtFirst(scans);
        Gathered(Failure(err), s.warnings)
      case Success(candidate) =>
        var rest := GatherScans(scans[1..], all, packages);
        var kept := if Selected(candidate, all, packages) then [candidate.value] else [];
        match rest.result
        case Failure(err) =>
          StopsLater(scans, err, rest.warnings);
          Gathered(Failure(err), s.warnings + rest.warnings)
        case Success(es) =>
          assert forall i :: 1 <= i < |scans| ==> scans[i] == scans[1..][i - 1];
          Gathered(Success(kept + es), s.warnings + rest.warnings)
  }

  /**
   * `_BuildEBuildDictionary` for one overlay: the candidates of its
   * directories that pass the package filter, in walk order.
   */
  function Gather(dirs: seq<seq<FileEntry>>, all: bool, packages: seq<string>,
                  parse: EntryParser, cmp: Comparator): (g: Gathered)
    ensures g.result.Success? <==>
      forall i :: 0 <= i < |dirs| ==> FindUprevCandidates(dirs[i], parse, cmp).result.Success?
    ensures g.result.Success? ==> forall e :: e in g.result.value ==>
      && e.isWorkon
      && (all || e.package in packages)
      && exists i :: 0 <= i < |dirs| && FindUprevCandidates(dirs[i], parse, cmp).result == Success(Some(e))
    ensures g.result.Success? ==> forall i :: 0 <= i < |dirs| ==>
      var s := FindUprevCandidates(dirs[i], parse, cmp);
      Selected(s.result.value, all, packages) ==> s.result.value.value in g.result.value
    ensures g.result.Success? ==> g.warnings == Warnings(ScanAll(dirs, parse, cmp))
    ensures g.result.Failure? ==> exists i: nat :: StopsAt(ScanAll(dirs, parse, cmp), i, g.result.error, g.warnings)
  {
    GatherScans(ScanAll(dirs, parse, cmp), all, packages)
  }

  /** A scan whose candidate passes the package filter. */
  function KeptBy(all: bool, packages: seq<string>): Scan -> bool
  {
    (s: Scan) => s.result.Success? && Selected(s.result.value, all, packages)
  }

  /** `s` is the scan that found candidate `e`. */
  function Found(): (Scan, EBuild) -> bool
  {
    (s: Scan, e: EBuild) => s.result == Success(Some(e))
  }

  /** `GatherScans` keeps the candidates that pass the filter, with their multiplicity and in walk order. */
  lemma {:induction false} GatherScansFrom(scans: seq<Scan>, all: bool, packages: seq<string>, from: nat)
    requires from <= |scans|
    requires forall i :: from <= i < |scans| ==> scans[i].result.Success?
    ensures var g := GatherScans(scans[from..], all, packages);
      g.result.Success? && Matches(g.result.value, scans, WhereFrom(scans, KeptBy(all, packages), from), Found())
    decreases |scans| - from
  {
    if from < |scans| {
      GatherScansFrom(scans, all, packages, from + 1);
      assert scans[from..][1..] == scans[from + 1..];
      var s := scans[from];
      var rest := GatherScans(scans[from + 1..], all, packages).result.value;
      var head := if KeptBy(all, packages)(s) then [s.result.value.value] else [];
      assert GatherScans(scans[from..], all, packages).result.value == head + rest;
      MatchesCons(scans, KeptBy(all, packages), from, head, rest, Found());
    }
  }

  /**
   * When every directory was scanned without a fatal error, the gathered
   * candidates are those of the scans that pass the filter, in walk order:
   * the `k`-th candidate is the one of the `k`-th such scan.
   */
  lemma GatherScansKeepsSelected(scans: seq<Scan>, all: bool, packages: seq<string>)
    requires forall i :: 0 <= i < |scans| ==> scans[i].result.Success?
    ensures var g := GatherScans(scans, all, packages);
      var idx := Where(scans, KeptBy(all, packages));
      && g.result.Success?
      && |g.result.value| == |idx|
      && forall k :: 0 <= k < |idx| ==> idx[k] < |scans| && scans[idx[k]].result == Success(Some(g.result.value[k]))
  {
    GatherScansFrom(scans, all, packages, 0);
    assert scans[0..] == scans;
    var g := GatherScans(scans, all, packages);
    var idx := Where(scans, KeptBy(all, packages));
    forall k | 0 <= k < |idx|
      ensures idx[k] < |scans| && scans[idx[k]].result == Success(Some(g.result.value[k]))
    {
      assert Found()(scans[idx[k]], g.result.value[k]);
    }
  }

  /**
   * `_BuildEBuildDictionary` keeps, in walk order, the candidates of exactly
   * the directories whose candidate passes the filter.
   */
  lemma GatherKeepsSelected(dirs: seq<seq<FileEntry>>, all: bool, packages: seq<string>,
                            parse: EntryParser, cmp: Comparator)
    requires forall i :: 0 <= i < |dirs| ==> FindUprevCandidates(dirs[i], parse, cmp).result.Success?
    ensures var g := Gather(dirs, all, packages, parse, cmp);
      var scans := ScanAll(dirs, parse, cmp);
      var idx := Where(scans, KeptBy(all, packages));
      && g.result.Success?
      && |g.result.value| == |idx|
      && forall k :: 0 <= k < |idx| ==>
           idx[k] < |dirs| && FindUprevCandidates(dirs[idx[k]], parse, cmp).result == Success(Some(g.result.value[k]))
  {
    GatherScansKeepsSelected(ScanAll(dirs, parse, cmp), all, packages);
  }

  /** With `--all`, every directory that has a candidate contributes it, in walk order. */
  lemma {:induction false} GatherAllKeepsEveryCandidate(scans: seq<Scan>, packages: seq<string>)
    requires forall i :: 0 <= i < |scans| ==> scans[i].result.Success? && scans[i].result.value.Some?
    ensures var g := GatherScans(scans, true, packages);
      && g.result.Success?
      && |g.result.value| == |scans|
      && forall i :: 0 <= i < |scans| ==> scans[i].result == Success(Some(g.result.value[i]))
    decreases |scans|
  {
    if |scans| > 0 {
      assert forall i :: 1 <= i < |scans| ==> scans[i] == scans[1..][i - 1];
      GatherAllKeepsEveryCandidate(scans[1..], packages);
    }
  }

  /** A directory whose ebuilds are all parsed but none inherits cros-workon has no candidate, even with stable ebuilds. */
  lemma NonWorkonDirectoryHasNoCandidate(files: seq<FileEntry>, parse: EntryParser, cmp: Comparator)
    requires ParseAll(files, parse).Success?
    requires forall e :: e in ParseAll(files, parse).value ==> !e.isWorkon
    ensures FindUprevCandidates(files, parse, cmp) == Scan(Success(None), [])
  {
    NoWorkonNoCandidates(ParseAll(files, parse).value);
  }

  /** One 9999 ebuild and one stable ebuild: the stable one is the candidate, silently. */
  lemma LiveAndStableChoosesStable(files: seq<FileEntry>, parse: EntryParser, cmp: Comparator)
    requires ParseAll(files, parse).Success?
    requires var es := ParseAll(files, parse).value;
      |UnstableWorkon(es)| == 1 && |StableWorkon(es)| == 1
    ensures var es := ParseAll(files, parse).value;
      FindUprevCandidates(files, parse, cmp) == Scan(Success(Some(StableWorkon(es)[0])), [])
  {
    var es := ParseAll(files, parse).value;
    assert StableWorkon(es)[0] in StableWorkon(es);
    assert es != [];
  }

  /** A 9999 ebuild with no stable ebuild is itself the candidate, with one warning. */
  lemma LiveOnlyChoosesLive(files: seq<FileEntry>, parse: EntryParser, cmp: Comparator)
    requires ParseAll(files, parse).Success?
    requires var es := ParseAll(files, parse).value;
      |UnstableWorkon(es)| == 1 && |StableWorkon(es)| == 0
    ensures var es := ParseAll(files, parse).value;
      FindUprevCandidates(files, parse, cmp)
        == Scan(Success(Some(UnstableWorkon(es)[0])), [MissingStableMessage(LastDir(files))])
  {
    var es := ParseAll(files, parse).value;
    assert UnstableWorkon(es)[0] in UnstableWorkon(es);
  }

  /**
   * Several stable ebuilds next to one 9999 ebuild: the candidate is a newest
   * stable one, with a warning unless it is the exempt legacy package.
   */
  lemma SeveralStableChoosesNewest(files: seq<FileEntry>, parse: EntryParser, cmp: Comparator)
    requires TotalPreorder(cmp)
    requires ParseAll(files, parse).Success?
    requires var es := ParseAll(files, parse).value;
      |UnstableWorkon(es)| == 1 && |StableWorkon(es)| > 1
    ensures var es := ParseAll(files, parse).value;
      var s := FindUprevCandidates(files, parse, cmp);
      && s.result.Success? && s.result.value.Some?
      && s.result.value.value in StableWorkon(es)
      && (forall e :: e in StableWorkon(es) ==> !Older(cmp, s.result.value.value, e))
      && s.warnings == (if s.result.value.value.package == LegacyExemptPackage
                        then [] else [MultipleStableMessage(LastDir(files))])
  {
    var es := ParseAll(files, parse).value;
    BestEBuildIsNewest(StableWorkon(es), cmp);
    assert UnstableWorkon(es)[0] in UnstableWorkon(es);
  }
}

=== FILE: decimal.dfy ===
/**
 * Decimal numerals: Python's `'%d' % n` (and `'%s' % n`) for a natural
 * number, and `int(s)` for a string of ASCII digits.
 */
module Decimal {
  import opened Wrappers

  predicate IsDigit(c: char)
  {
    '0' <= c <= '9'
  }

  predicate AllDigits(s: string)
  {
    forall i :: 0 <= i < |s| ==> IsDigit(s[i])
  }

  function DigitChar(d: nat): (c: char)
    requires d < 10
    ensures IsDigit(c)
  {
    (48 + d) as char
  }

  function DigitValue(c: char): (d: nat)
    requires IsDigit(c)
    ensures d < 10
  {
    (c as int - 48) as nat
  }

  /** `'%d' % n`: the shortest decimal numeral of `n`, without leading zeros. */
  function FromNat(n: nat): (s: string)
    ensures |s| > 0 && AllDigits(s)
    ensures |s| > 1 ==> s[0] != '0'
    decreases n
  {
    if n < 10 then [DigitChar(n)] else FromNat(n / 10) + [DigitChar(n % 10)]
  }

  /** The value of a string of digits, most significant first. */
  function Value(s: string): nat
    requires AllDigits(s)
    decreases |s|
  {
    if |s| == 0 then 0 else 10 * Value(s[..|s| - 1]) + DigitValue(s[|s| - 1])
  }

  /**
   * `int(s)` restricted to what a revision suffix can hold: a non-empty run
   * of ASCII digits (leading zeros allowed); anything else is the
   * `ValueError` Python raises.
   */
  function Parse(s: string): (r: Option<nat>)
    ensures r.Some? <==> |s| > 0 && AllDigits(s)
  {
    if |s| > 0 && AllDigits(s) then Some(Value(s)) else None
  }

  /** Reading back a printed number gives the number. */
  lemma {:induction false} ValueFromNat(n: nat)
    ensures Value(FromNat(n)) == n
    decreases n
  {
    if n >= 10 {
      ValueFromNat(n / 10);
      var s := FromNat(n);
      assert s[..|s| - 1] == FromNat(n / 10);
    }
  }

  lemma ParseFromNat(n: nat)
    ensures Parse(FromNat(n)) == Some(n)
  {
    ValueFromNat(n);
  }

  /** Distinct numbers print differently, so a printed revision identifies it. */
  lemma FromNatInjective(m: nat, n: nat)
    requires FromNat(m) == FromNat(n)
    ensures m == n
  {
    ValueFromNat(m);
    ValueFromNat(n);
  }
}

=== FILE: ebuild.dfy ===
/**
 * One ebuild file and the record parsed from its path and its lines
 * (the `EBuild` class of cros_mark_as_stable.py).
 */
module Ebuild {
  import opened Wrappers
  import opened Text
  import Decimal
  import Paths

  /**
   * What `portage.versions.pkgsplit` returns for a valid name: the package
   * name, the version without revision, and the revision as "r<n>"
   * ("r0" when the name carries none).
   */
  datatype PkgSplit = PkgSplit(name: string, versionNoRev: string, rev: string)

  /** `pkgsplit` itself is package-manager semantics and stays a parameter; `None` stands for its `None`. */
  type Splitter = string -> Option<PkgSplit>

  datatype EBuild = EBuild(
    path: string,
    category: string,
    pkgname: string,
    pathNoVersion: string,
    pathNoRevision: string,
    currentRevision: nat,
    version: string,
    package: string,
    isWorkon: bool,
    isStable: bool)

  /** The exceptions the constructor can raise, one per failing step. */
  datatype ParseError =
    | TooFewComponents          // unpacking `path.rsplit('/', 3)` into four names
    | NotPackageName(stem: string) // unpacking the `None` that `pkgsplit` returned
    | BadRevision(rev: string)  // `int()` of the revision without its 'r'

  /**
   * The conditions that end the whole run: `Die`, an exception from parsing
   * an ebuild, or the `CalledProcessError` `_SimpleRunCommand` raises when a
   * shell command exits non-zero.
   */
  datatype Fatal =
    | Die(message: string)
    | Unparsable(path: string, error: ParseError)
    | CommandFailed(command: string)

  /** A line that makes the ebuild a cros-workon ebuild. */
  predicate IsWorkonLine(line: string)
  {
    StartsWith(line, "inherit ") && Contains(line, "cros-workon")
  }

  /** A KEYWORDS line with no unstable ('~') keyword and at least one known architecture. */
  predicate IsStableKeywordsLine(line: string)
  {
    && StartsWith(line, "KEYWORDS=")
    && '~' !in line
    && (Contains(line, "amd64") || Contains(line, "x86") || Contains(line, "arm"))
  }

  /**
   * The line loop of the constructor: each line sets `is_workon` if it is an
   * inherit line, and otherwise (`elif`) `is_stable` if it is a stable
   * KEYWORDS line. Returns `(is_workon, is_stable)`.
   */
  function ScanFlags(lines: seq<string>): (flags: (bool, bool))
    ensures flags.0 <==> exists i :: 0 <= i < |lines| && IsWorkonLine(lines[i])
    ensures flags.1 <==> exists i :: 0 <= i < |lines| && IsStableKeywordsLine(lines[i])
    decreases |lines|
  {
    if |lines| == 0 then (false, false)
    else
      var rest := ScanFlags(lines[1..]);
      assert forall i :: 1 <= i < |lines| ==> lines[i] == lines[1..][i - 1];
      if IsWorkonLine(lines[0]) then
        assert !IsStableKeywordsLine(lines[0]) by { assert lines[0][0] == 'i'; }
        (true, rest.1)
      else if IsStableKeywordsLine(lines[0]) then (rest.0, true)
      else rest
  }

  /** The constructor `EBuild(path)`, given the lines of the file at `path`. */
  function Parse(path: string, lines: seq<string>, pkgsplit: Splitter): (r: Result<EBuild, ParseError>)
    ensures r.Success? ==>
      && r.value.path == path
      && '/' !in r.value.category && '/' !in r.value.pkgname
      && (exists unused, filename :: '/' !in filename &&
            path == unused + "/" + r.value.category + "/" + r.value.pkgname + "/" + filename)
      && r.value.package == r.value.category + "/" + r.value.pkgname
    ensures r.Success? ==>
      && (r.value.isWorkon <==> exists i :: 0 <= i < |lines| && IsWorkonLine(lines[i]))
      && (r.value.isStable <==> exists i :: 0 <= i < |lines| && IsStableKeywordsLine(lines[i]))
    ensures r == Failure(TooFewComponents) <==> Paths.RSplit3(path).None?
  {
    match Paths.RSplit3(path)
    case None => Failure(TooFewComponents)
    case Some((unused, category, pkgname, filename)) =>
      var stem := RemoveAll(filename, ".ebuild");
      match pkgsplit(stem)
      case None => Failure(NotPackageName(stem))
      case Some(split) =>
        match Decimal.Parse(RemoveAll(split.rev, "r"))
        case None => Failure(BadRevision(split.rev))
        case Some(revision) =>
          var noVersion := Paths.Join(Paths.DirName(path), pkgname);
          var flags := ScanFlags(lines);
          Success(EBuild(
            path := path,
            category := category,
            pkgname := pkgname,
            pathNoVersion := noVersion,
            pathNoRevision := noVersion + "-" + split.versionNoRev,
            currentRevision := revision,
            version := split.versionNoRev + "-" + split.rev,
            package := category + "/" + pkgname,
            isWorkon := flags.0,
            isStable := flags.1))
  }

  /**
   * A file name `<stem>.ebuild` whose stem ends in a digit and holds no
   * ".ebuild" loses exactly its extension to `filename.replace('.ebuild', '')`.
   */
  lemma StemOfFileName(stem: string)
    requires |stem| > 0 && Decimal.IsDigit(stem[|stem| - 1])
    requires !Contains(stem, ".ebuild")
    ensures RemoveAll(stem + ".ebuild", ".ebuild") == stem
  {
    forall i | 0 <= i < |stem|
      ensures !StartsWith((stem + ".ebuild")[i..], ".ebuild")
    {
      if i + 7 <= |stem| {
        SuffixNotInsideStem(stem, ".ebuild", i);
      } else {
        SuffixNotAcrossDigit(stem, i);
      }
    }
    RemoveTrailing(stem, ".ebuild");
  }

  /** A pattern the stem does not contain cannot start inside the stem and end there. */
  lemma SuffixNotInsideStem(stem: string, pat: string, i: nat)
    requires !Contains(stem, pat)
    requires i + |pat| <= |stem|
    ensures !StartsWith((stem + pat)[i..], pat)
  {
    if StartsWith((stem + pat)[i..], pat) {
      assert stem[i..][..|pat|] == (stem + pat)[i..][..|pat|];
      ContainsIff(stem, pat);
      assert false;
    }
  }

  /** ".ebuild" holds no digit, so it cannot start across the stem's last digit. */
  lemma SuffixNotAcrossDigit(stem: string, i: nat)
    requires |stem| > 0 && Decimal.IsDigit(stem[|stem| - 1])
    requires i < |stem| < i + 7
    ensures !StartsWith((stem + ".ebuild")[i..], ".ebuild")
  {
    var j := |stem| - 1 - i;
    assert (stem + ".ebuild")[i..][j] == stem[|stem| - 1];
    assert !Decimal.IsDigit(".ebuild"[j]);
  }

  /** The file name of revision `n` of version `version` of `pkgname`. */
  function StableFileName(pkgname: string, version: string, n: nat): string
  {
    pkgname + "-" + version + "-r" + Decimal.FromNat(n) + ".ebuild"
  }

  /**
   * Parsing `<dir>/<category>/<pkgname>/<pkgname>-<version>-r<n>.ebuild`,
   * when `pkgsplit` splits its stem into name, version and "r<n>", yields
   * the package `<category>/<pkgname>`, revision `n`, and the derived paths
   * that share the directory and the name.
   */
  lemma ParseStableFileName(unused: string, category: string, pkgname: string, version: string,
                            n: nat, lines: seq<string>, pkgsplit: Splitter)
    requires '/' !in category && '/' !in pkgname && '/' !in version && |pkgname| > 0
    requires !Contains(pkgname + "-" + version + "-r" + Decimal.FromNat(n), ".ebuild")
    requires pkgsplit(pkgname + "-" + version + "-r" + Decimal.FromNat(n))
          == Some(PkgSplit(pkgname, version, "r" + Decimal.FromNat(n)))
    ensures var r := Parse(unused + "/" + category + "/" + pkgname + "/" + StableFileName(pkgname, version, n),
                           lines, pkgsplit);
      && r.Success?
      && r.value.category == category
      && r.value.pkgname == pkgname
      && r.value.package == category + "/" + pkgname
      && r.value.currentRevision == n
      && r.value.version == version + "-r" + Decimal.FromNat(n)
      && r.value.pathNoVersion == unused + "/" + category + "/" + pkgname + "/" + pkgname
      && r.value.pathNoRevision == r.value.pathNoVersion + "-" + version
  {
    var digits := Decimal.FromNat(n);
    var filename := StableFileName(pkgname, version, n);
    var dir := unused + "/" + category + "/" + pkgname;
    var path := dir + "/" + filename;
    StableFileNameFacts(pkgname, version, n);
    Paths.RSplit3OfJoin(unused, category, pkgname, filename);
    RevisionOfDigits(n);
    Paths.DirNameOfJoin(unused + "/" + category, pkgname, filename);
    Paths.JoinName(dir, pkgname);
    ParseSteps(path, lines, pkgsplit, unused, category, pkgname, filename,
               PkgSplit(pkgname, version, "r" + digits), n);
    DashR(version, digits);
  }

  /** Proof plumbing: the "-r<digits>" suffix regrouped. It models nothing of the program. */
  lemma DashR(a: string, b: string)
    ensures a + "-" + ("r" + b) == a + "-r" + b
  {
    assert "-" + "r" == "-r";
    assert a + "-" + ("r" + b) == a + ("-" + "r") + b;
  }

  /** The stable file name has no '/' and `pkgsplit` sees its stem. */
  lemma StableFileNameFacts(pkgname: string, version: string, n: nat)
    requires '/' !in pkgname && '/' !in version
    requires !Contains(pkgname + "-" + version + "-r" + Decimal.FromNat(n), ".ebuild")
    ensures '/' !in StableFileName(pkgname, version, n)
    ensures RemoveAll(StableFileName(pkgname, version, n), ".ebuild")
         == pkgname + "-" + version + "-r" + Decimal.FromNat(n)
  {
    var digits := Decimal.FromNat(n);
    var stem := pkgname + "-" + version + "-r" + digits;
    assert StableFileName(pkgname, version, n) == stem + ".ebuild";
    assert '/' !in stem + ".ebuild" by {
      assert forall i :: 0 <= i < |digits| ==> digits[i] != '/';
    }
    assert Decimal.IsDigit(stem[|stem| - 1]) by {
      assert stem[|stem| - 1] == digits[|digits| - 1];
    }
    StemOfFileName(stem);
  }

  /** Proof plumbing: `Parse` unfolded once each of its steps is known to succeed. */
  lemma ParseSteps(path: string, lines: seq<string>, pkgsplit: Splitter,
                   unused: string, category: string, pkgname: string, filename: string,
                   split: PkgSplit, revision: nat)
    requires Paths.RSplit3(path) == Some((unused, category, pkgname, filename))
    requires pkgsplit(RemoveAll(filename, ".ebuild")) == Some(split)
    requires Decimal.Parse(RemoveAll(split.rev, "r")) == Some(revision)
    ensures var r := Parse(path, lines, pkgsplit);
      && r.Success?
      && r.value.category == category
      && r.value.pkgname == pkgname
      && r.value.package == category + "/" + pkgname
      && r.value.currentRevision == revision
      && r.value.version == split.versionNoRev + "-" + split.rev
      && r.value.pathNoVersion == Paths.Join(Paths.DirName(path), pkgname)
      && r.value.pathNoRevision == r.value.pathNoVersion + "-" + split.versionNoRev
  {
  }

  /** `int("r<n>".replace('r', ''))` is `n`. */
  lemma RevisionOfDigits(n: nat)
    ensures Decimal.Parse(RemoveAll("r" + Decimal.FromNat(n), "r")) == Some(n)
  {
    var digits := Decimal.FromNat(n);
    RemoveCharSpec(digits, 'r');
    assert 'r' !in digits by {
      assert forall i :: 0 <= i < |digits| ==> digits[i] != 'r';
    }
    assert RemoveAll("r" + digits, "r") == RemoveAll(digits, "r") by {
      assert StartsWith("r" + digits, "r");
      assert ("r" + digits)[1..] == digits;
    }
    Decimal.ParseFromNat(n);
  }

  /**
   * A parsed ebuild with a non-empty package name lives in
   * `<unused>/<category>/<pkgname>/`, and `ebuild_path_no_version` is
   * `<unused>/<category>/<pkgname>/<pkgname>`.
   */
  lemma ParsedPathShape(path: string, lines: seq<string>, pkgsplit: Splitter) returns (unused: string, filename: string)
    requires Parse(path, lines, pkgsplit).Success?
    requires |Parse(path, lines, pkgsplit).value.pkgname| > 0
    ensures var e := Parse(path, lines, pkgsplit).value;
      && '/' !in filename
      && path == unused + "/" + e.category + "/" + e.pkgname + "/" + filename
      && e.pathNoVersion == unused + "/" + e.category + "/" + e.pkgname + "/" + e.pkgname
  {
    var e := Parse(path, lines, pkgsplit).value;
    ParseNoVersion(path, lines, pkgsplit);
    unused, filename :| '/' !in filename && path == unused + "/" + e.category + "/" + e.pkgname + "/" + filename;
    var dir := unused + "/" + e.category + "/" + e.pkgname;
    Paths.DirNameOfJoin(unused + "/" + e.category, e.pkgname, filename);
    Paths.JoinName(dir, e.pkgname);
  }

  /** `ebuild_path_no_version` is `os.path.join(os.path.dirname(path), pkgname)`. */
  lemma ParseNoVersion(path: string, lines: seq<string>, pkgsplit: Splitter)
    requires Parse(path, lines, pkgsplit).Success?
    ensures var e := Parse(path, lines, pkgsplit).value;
      e.pathNoVersion == Paths.Join(Paths.DirName(path), e.pkgname)
  {
    var parts := Paths.RSplit3(path).value;
    var split := pkgsplit(RemoveAll(parts.3, ".ebuild")).value;
    var revision := Decimal.Parse(RemoveAll(split.rev, "r")).value;
    ParseSteps(path, lines, pkgsplit, parts.0, parts.1, parts.2, parts.3, split, revision);
  }
}

=== FILE: filters.dfy ===
/**
 * Filters, stated independently of how each one is computed: the indices of
 * a sequence whose element satisfies a test, in increasing order, and the
 * elements found at those indices.
 */
module Filters {

  /** Strictly increasing indices. */
  predicate Increasing(idx: seq<nat>)
  {
    forall k, l :: 0 <= k < l < |idx| ==> idx[k] < idx[l]
  }

  /** The indices `j >= from` of the elements of `s` that pass `p`, in increasing order (see `WhereFromSpec`). */
  function WhereFrom<T>(s: seq<T>, p: T -> bool, from: nat): (idx: seq<nat>)
    requires from <= |s|
    ensures |idx| <= |s| - from
    decreases |s| - from
  {
    if from == |s| then []
    else (if p(s[from]) then [from] else []) + WhereFrom(s, p, from + 1)
  }

  /** The indices of the elements of `s` that pass `p`, in increasing order. */
  function Where<T>(s: seq<T>, p: T -> bool): (idx: seq<nat>)
    ensures |idx| <= |s|
  {
    WhereFrom(s, p, 0)
  }

  /**
   * `WhereFrom` lists exactly the passing indices from `from` on, each once
   * and in increasing order.
   */
  lemma {:induction false} WhereFromSpec<T>(s: seq<T>, p: T -> bool, from: nat)
    requires from <= |s|
    ensures var idx := WhereFrom(s, p, from);
      && Increasing(idx)
      && (forall k :: 0 <= k < |idx| ==> from <= idx[k] < |s| && p(s[idx[k]]))
      && (forall j :: from <= j < |s| && p(s[j]) ==> j in idx)
    decreases |s| - from
  {
    if from < |s| {
      WhereFromSpec(s, p, from + 1);
      var rest := WhereFrom(s, p, from + 1);
      var idx := WhereFrom(s, p, from);
      assert forall k :: 0 <= k < |rest| ==> from < rest[k];
      if p(s[from]) {
        assert idx == [from] + rest;
        assert forall k :: 1 <= k < |idx| ==> idx[k] == rest[k - 1];
      } else {
        assert idx == rest;
      }
    }
  }

  /** `Where` lists exactly the passing indices, each once and in increasing order. */
  lemma WhereSpec<T>(s: seq<T>, p: T -> bool)
    ensures var idx := Where(s, p);
      && Increasing(idx)
      && (forall k :: 0 <= k < |idx| ==> idx[k] < |s| && p(s[idx[k]]))
      && (forall j :: 0 <= j < |s| && p(s[j]) ==> j in idx)
  {
    WhereFromSpec(s, p, 0);
  }

  /** `r` is made of the elements of `s` at `idx`, in that order. */
  predicate Picks<T(==)>(r: seq<T>, s: seq<T>, idx: seq<nat>)
  {
    && |r| == |idx|
    && forall k :: 0 <= k < |idx| ==> idx[k] < |s| && r[k] == s[idx[k]]
  }

  /**
   * A filter that keeps or drops `s[from]` and then filters the rest keeps
   * exactly the passing elements from `from` on, in order and with their
   * multiplicity.
   */
  lemma PicksCons<T>(s: seq<T>, p: T -> bool, from: nat, rest: seq<T>)
    requires from < |s|
    requires Picks(rest, s, WhereFrom(s, p, from + 1))
    ensures Picks((if p(s[from]) then [s[from]] else []) + rest, s, WhereFrom(s, p, from))
  {
    var tail := WhereFrom(s, p, from + 1);
    if p(s[from]) {
      var r := [s[from]] + rest;
      var idx := WhereFrom(s, p, from);
      assert idx == [from] + tail;
      assert forall k :: 1 <= k < |idx| ==> idx[k] == tail[k - 1] && r[k] == rest[k - 1];
    } else {
      assert WhereFrom(s, p, from) == tail;
    }
  }

  /** `r` holds one element per index of `idx`, in order, each related by `rel` to the element of `s` there. */
  predicate Matches<T, U>(r: seq<U>, s: seq<T>, idx: seq<nat>, rel: (T, U) -> bool)
  {
    && |r| == |idx|
    && forall k :: 0 <= k < |idx| ==> idx[k] < |s| && rel(s[idx[k]], r[k])
  }

  /**
   * A filter that maps a passing `s[from]` to one related result, drops a
   * failing one, and then filters the rest, yields one related result per
   * passing element from `from` on, in order.
   */
  lemma MatchesCons<T, U>(s: seq<T>, p: T -> bool, from: nat, head: seq<U>, rest: seq<U>, rel: (T, U) -> bool)
    requires from < |s|
    requires Matches(rest, s, WhereFrom(s, p, from + 1), rel)
    requires p(s[from]) ==> |head| == 1 && rel(s[from], head[0])
    requires !p(s[from]) ==> head == []
    ensures Matches(head + rest, s, WhereFrom(s, p, from), rel)
  {
    var tail := WhereFrom(s, p, from + 1);
    if p(s[from]) {
      var r := head + rest;
      var idx := WhereFrom(s, p, from);
      assert idx == [from] + tail;
      assert forall k :: 1 <= k < |idx| ==> idx[k] == tail[k - 1] && r[k] == rest[k - 1];
    } else {
      assert WhereFrom(s, p, from) == tail;
    }
  }
}

=== FILE: marker.dfy ===
/**
 * The text rewrite that turns a copy of the 9999 ebuild into a stable ebuild
 * (`EBuildStableMarker.MarkAsStable`). Lines keep their terminators; the
 * rule list is applied to each line, first match wins.
 */
module Marker {
  import opened Text

  /** `'%s="%s"\n' % (keyword, value)`: the line binding the commit id. */
  function CommitLine(keyword: string, value: string): string
  {
    keyword + "=\"" + value + "\"\n"
  }

  /** The rules for one line, in order; the first that matches decides. */
  function RewriteLine(line: string, keyword: string, value: string): seq<string>
  {
    if StartsWith(line, "KEYWORDS") then
      // mark the file stable: drop every '~'
      [RemoveAll(line, "~")]
    else if StartsWith(line, "EAPI") then
      // the new commit id goes right after the EAPI line
      [line] + (if keyword != "" && value != "" then [CommitLine(keyword, value)] else [])
    else if StartsWith(line, keyword) then
      // an old commit id line is dropped
      []
    else
      [line]
  }

  /** The body of `MarkAsStable`: the rewritten lines of the copied file. */
  function MarkAsStable(lines: seq<string>, keyword: string, value: string): (out: seq<string>)
    ensures |out| <= 2 * |lines|
    ensures keyword == "" || value == "" ==> |out| <= |lines|
    decreases |lines|
  {
    if |lines| == 0 then []
    else RewriteLine(lines[0], keyword, value) + MarkAsStable(lines[1..], keyword, value)
  }

  /**
   * A commit keyword that can never be confused with the KEYWORDS or EAPI
   * prefixes: no line starts with both. "CROS_WORKON_COMMIT" is one.
   */
  predicate Compatible(keyword: string)
  {
    && !StartsWith("KEYWORDS", keyword) && !StartsWith(keyword, "KEYWORDS")
    && !StartsWith("EAPI", keyword) && !StartsWith(keyword, "EAPI")
  }

  /** Two prefixes of the same line are prefixes of each other. */
  lemma PrefixesComparable(line: string, a: string, b: string)
    requires StartsWith(line, a) && StartsWith(line, b)
    ensures StartsWith(a, b) || StartsWith(b, a)
  {
    if |a| <= |b| {
      assert b[..|a|] == line[..|b|][..|a|];
    } else {
      assert a[..|b|] == line[..|a|][..|b|];
    }
  }

  /** Removing '~' from a KEYWORDS line leaves a KEYWORDS line without '~', and doing it again changes nothing. */
  lemma StripTildes(line: string)
    requires StartsWith(line, "KEYWORDS")
    ensures StartsWith(RemoveAll(line, "~"), "KEYWORDS")
    ensures '~' !in RemoveAll(line, "~")
    ensures RemoveAll(RemoveAll(line, "~"), "~") == RemoveAll(line, "~")
  {
    assert line == "KEYWORDS" + line[8..];
    RemoveCharKeepsPrefix("KEYWORDS", line[8..], '~');
    RemoveCharSpec(line, '~');
    RemoveCharSpec(RemoveAll(line, "~"), '~');
  }

  lemma {:induction false} MarkAsStableAppend(a: seq<string>, b: seq<string>, keyword: string, value: string)
    ensures MarkAsStable(a + b, keyword, value) == MarkAsStable(a, keyword, value) + MarkAsStable(b, keyword, value)
    decreases |a|
  {
    if |a| == 0 {
      assert a + b == b;
    } else {
      assert (a + b)[1..] == a[1..] + b;
      MarkAsStableAppend(a[1..], b, keyword, value);
    }
  }

  /** Every line the rewrite emits is a fixed point of the rewrite. */
  lemma RewriteLineStable(line: string, keyword: string, value: string)
    requires Compatible(keyword)
    ensures MarkAsStable(RewriteLine(line, keyword, value), keyword, value) == RewriteLine(line, keyword, value)
  {
    var out := RewriteLine(line, keyword, value);
    if StartsWith(line, "KEYWORDS") {
      StripTildes(line);
      assert MarkAsStable(out, keyword, value) == RewriteLine(out[0], keyword, value);
    } else if StartsWith(line, "EAPI") {
      if keyword != "" && value != "" {
        var c := CommitLine(keyword, value);
        assert StartsWith(c, keyword);
        if StartsWith(c, "KEYWORDS") { PrefixesComparable(c, keyword, "KEYWORDS"); }
        if StartsWith(c, "EAPI") { PrefixesComparable(c, keyword, "EAPI"); }
        assert out[1..] == [c];
        assert MarkAsStable(out[1..], keyword, value) == RewriteLine(c, keyword, value);
      }
      assert MarkAsStable(out, keyword, value) == RewriteLine(line, keyword, value) + MarkAsStable(out[1..], keyword, value);
    }
  }

  /** Re-applying the rewrite with the same commit id is a no-op. */
  lemma {:induction false} MarkAsStableIdempotent(lines: seq<string>, keyword: string, value: string)
    requires Compatible(keyword)
    ensures MarkAsStable(MarkAsStable(lines, keyword, value), keyword, value) == MarkAsStable(lines, keyword, value)
    decreases |lines|
  {
    if |lines| > 0 {
      var head := RewriteLine(lines[0], keyword, value);
      var tail := MarkAsStable(lines[1..], keyword, value);
      MarkAsStableAppend(head, tail, keyword, value);
      RewriteLineStable(lines[0], keyword, value);
      MarkAsStableIdempotent(lines[1..], keyword, value);
    }
  }

  /** The number of lines that start with `prefix`. */
  function CountPrefixed(lines: seq<string>, prefix: string): nat
    decreases |lines|
  {
    if |lines| == 0 then 0
    else (if StartsWith(lines[0], prefix) then 1 else 0) + CountPrefixed(lines[1..], prefix)
  }

  lemma {:induction false} CountPrefixedAppend(a: seq<string>, b: seq<string>, prefix: string)
    ensures CountPrefixed(a + b, prefix) == CountPrefixed(a, prefix) + CountPrefixed(b, prefix)
    decreases |a|
  {
    if |a| == 0 {
      assert a + b == b;
    } else {
      assert (a + b)[1..] == a[1..] + b;
      CountPrefixedAppend(a[1..], b, prefix);
    }
  }

  /** One line's rewrite holds a commit id line exactly when it is an EAPI line and the value is set. */
  lemma RewriteLineCount(line: string, keyword: string, value: string)
    requires Compatible(keyword)
    ensures CountPrefixed(RewriteLine(line, keyword, value), keyword)
         == (if value != "" && StartsWith(line, "EAPI") then 1 else 0)
  {
    var head := RewriteLine(line, keyword, value);
    if StartsWith(line, "KEYWORDS") {
      StripTildes(line);
      if StartsWith(head[0], keyword) { PrefixesComparable(head[0], keyword, "KEYWORDS"); }
      assert CountPrefixed(head, keyword) == 0;
    } else if StartsWith(line, "EAPI") {
      if StartsWith(line, keyword) { PrefixesComparable(line, keyword, "EAPI"); }
      assert keyword != "";
      if value != "" {
        var c := CommitLine(keyword, value);
        assert StartsWith(c, keyword);
        assert head == [line, c];
        assert head[1..] == [c];
        assert CountPrefixed(head[1..], keyword) == 1;
      } else {
        assert head == [line];
      }
      assert CountPrefixed(head, keyword) == CountPrefixed(head[1..], keyword);
    }
  }

  /**
   * The output holds one commit id line per EAPI line of the input (none
   * when the value is empty): old ones are all dropped.
   */
  lemma {:induction false} CommitLineCount(lines: seq<string>, keyword: string, value: string)
    requires Compatible(keyword)
    ensures CountPrefixed(MarkAsStable(lines, keyword, value), keyword)
         == (if value != "" then CountPrefixed(lines, "EAPI") else 0)
    decreases |lines|
  {
    if |lines| > 0 {
      CountPrefixedAppend(RewriteLine(lines[0], keyword, value), MarkAsStable(lines[1..], keyword, value), keyword);
      CommitLineCount(lines[1..], keyword, value);
      RewriteLineCount(lines[0], keyword, value);
    }
  }

  /** Every commit id line of the output is the new one and follows an EAPI line. */
  predicate CommitLinesPlaced(out: seq<string>, keyword: string, value: string)
  {
    forall i :: 0 <= i < |out| && StartsWith(out[i], keyword) ==>
      0 < i && StartsWith(out[i - 1], "EAPI") && out[i] == CommitLine(keyword, value)
  }

  lemma {:induction false} CommitLinesFollowEapi(lines: seq<string>, keyword: string, value: string)
    requires Compatible(keyword)
    ensures CommitLinesPlaced(MarkAsStable(lines, keyword, value), keyword, value)
    decreases |lines|
  {
    if |lines| > 0 {
      var line := lines[0];
      var head := RewriteLine(line, keyword, value);
      var tail := MarkAsStable(lines[1..], keyword, value);
      var out := head + tail;
      CommitLinesFollowEapi(lines[1..], keyword, value);
      forall i | 0 <= i < |out| && StartsWith(out[i], keyword)
        ensures 0 < i && StartsWith(out[i - 1], "EAPI") && out[i] == CommitLine(keyword, value)
      {
        if i < |head| {
          if StartsWith(line, "KEYWORDS") {
            StripTildes(line);
            PrefixesComparable(head[0], keyword, "KEYWORDS");
          } else if StartsWith(line, "EAPI") {
            if i == 0 { PrefixesComparable(line, keyword, "EAPI"); }
          }
        } else {
          assert out[i] == tail[i - |head|];
          assert out[i - 1] == tail[i - |head| - 1];
        }
      }
    }
  }

  /**
   * Rewriting a file that already binds a commit id, with a new id, leaves
   * exactly one binding, the new one, right after the single EAPI line.
   */
  lemma ReplacesCommitId(lines: seq<string>, keyword: string, value: string)
    requires Compatible(keyword) && value != ""
    requires CountPrefixed(lines, "EAPI") == 1
    ensures var out := MarkAsStable(lines, keyword, value);
      && CountPrefixed(out, keyword) == 1
      && CommitLinesPlaced(out, keyword, value)
  {
    CommitLineCount(lines, keyword, value);
    CommitLinesFollowEapi(lines, keyword, value);
  }

  /** The lines that do not start with `keyword`, in order. */
  function Others(lines: seq<string>, keyword: string): (r: seq<string>)
    ensures |r| <= |lines|
    decreases |lines|
  {
    if |lines| == 0 then []
    else (if StartsWith(lines[0], keyword) then [] else [lines[0]]) + Others(lines[1..], keyword)
  }

  /** A line as the stable ebuild has it: KEYWORDS lines lose their '~'. */
  function Stabilized(line: string): string
  {
    if StartsWith(line, "KEYWORDS") then RemoveAll(line, "~") else line
  }

  function StabilizeAll(lines: seq<string>): (r: seq<string>)
    ensures |r| == |lines|
    ensures forall i :: 0 <= i < |lines| ==> r[i] == Stabilized(lines[i])
    decreases |lines|
  {
    if |lines| == 0 then [] else [Stabilized(lines[0])] + StabilizeAll(lines[1..])
  }

  lemma {:induction false} OthersAppend(a: seq<string>, b: seq<string>, keyword: string)
    ensures Others(a + b, keyword) == Others(a, keyword) + Others(b, keyword)
    decreases |a|
  {
    if |a| == 0 {
      assert a + b == b;
    } else {
      assert (a + b)[1..] == a[1..] + b;
      OthersAppend(a[1..], b, keyword);
    }
  }

  /** One line's rewrite, without commit id lines, is the line itself, stabilized, unless it is a commit id line. */
  lemma RewriteLineOthers(line: string, keyword: string, value: string)
    requires Compatible(keyword)
    ensures Others(RewriteLine(line, keyword, value), keyword)
         == StabilizeAll(if StartsWith(line, keyword) then [] else [line])
  {
    var head := RewriteLine(line, keyword, value);
    if StartsWith(line, "KEYWORDS") {
      StripTildes(line);
      if StartsWith(head[0], keyword) { PrefixesComparable(head[0], keyword, "KEYWORDS"); }
      if StartsWith(line, keyword) { PrefixesComparable(line, keyword, "KEYWORDS"); }
      assert Others(head, keyword) == [head[0]];
    } else if StartsWith(line, "EAPI") {
      if StartsWith(line, keyword) { PrefixesComparable(line, keyword, "EAPI"); }
      if keyword != "" && value != "" {
        assert head == [line, CommitLine(keyword, value)];
        assert StartsWith(CommitLine(keyword, value), keyword);
        assert head[1..] == [CommitLine(keyword, value)];
      }
      assert Others(head, keyword) == [line];
    }
  }

  /** Stabilizing works line by line, so it distributes over concatenation. */
  lemma StabilizeAllAppend(a: seq<string>, b: seq<string>)
    ensures StabilizeAll(a + b) == StabilizeAll(a) + StabilizeAll(b)
  {
  }

  /**
   * Apart from commit id lines, the output is the input in the same order,
   * with only the '~' of KEYWORDS lines removed.
   */
  lemma {:induction false} OtherLinesPassThrough(lines: seq<string>, keyword: string, value: string)
    requires Compatible(keyword)
    ensures Others(MarkAsStable(lines, keyword, value), keyword) == StabilizeAll(Others(lines, keyword))
    decreases |lines|
  {
    if |lines| > 0 {
      var line := lines[0];
      var first := if StartsWith(line, keyword) then [] else [line];
      OthersAppend(RewriteLine(line, keyword, value), MarkAsStable(lines[1..], keyword, value), keyword);
      OtherLinesPassThrough(lines[1..], keyword, value);
      RewriteLineOthers(line, keyword, value);
      StabilizeAllAppend(first, Others(lines[1..], keyword));
    }
  }

  /** KEYWORDS lines emitted for one line carry no '~'. */
  lemma RewriteLineKeywordsStable(line: string, keyword: string, value: string)
    requires Compatible(keyword)
    ensures KeywordsStable(RewriteLine(line, keyword, value))
  {
    var head := RewriteLine(line, keyword, value);
    if StartsWith(line, "KEYWORDS") {
      StripTildes(line);
    } else if StartsWith(line, "EAPI") {
      assert line[0] == 'E';
      if keyword != "" && value != "" {
        var c := CommitLine(keyword, value);
        assert head == [line, c];
        assert StartsWith(c, keyword);
        if StartsWith(c, "KEYWORDS") { PrefixesComparable(c, keyword, "KEYWORDS"); }
      }
    }
  }

  /** No KEYWORDS line carries the unstable '~' marker. */
  predicate KeywordsStable(lines: seq<string>)
  {
    forall i :: 0 <= i < |lines| && StartsWith(lines[i], "KEYWORDS") ==> '~' !in lines[i]
  }

  /** KEYWORDS lines of the output carry no unstable '~' marker. */
  lemma {:induction false} KeywordsLinesStable(lines: seq<string>, keyword: string, value: string)
    requires Compatible(keyword)
    ensures KeywordsStable(MarkAsStable(lines, keyword, value))
    decreases |lines|
  {
    if |lines| > 0 {
      var head := RewriteLine(lines[0], keyword, value);
      var tail := MarkAsStable(lines[1..], keyword, value);
      KeywordsLinesStable(lines[1..], keyword, value);
      RewriteLineKeywordsStable(lines[0], keyword, value);
      assert KeywordsStable(head);
      forall i | 0 <= i < |head + tail| && StartsWith((head + tail)[i], "KEYWORDS")
        ensures '~' !in (head + tail)[i]
      {
        if i >= |head| {
          assert (head + tail)[i] == tail[i - |head|];
        } else {
          assert (head + tail)[i] == head[i];
        }
      }
    }
  }

  /*
   * The lemmas above speak of the pieces `MarkAsStable` writes, one per
   * line written. Those pieces are the new file's lines when the copied
   * file ends in "\n" and neither the keyword nor the value holds one; the
   * lemmas below carry the properties over to the file's text under
   * exactly those conditions.
   */

  /** The text of the new stable ebuild written from the copied file's text. */
  function MarkFile(text: string, keyword: string, value: string): string
  {
    Concat(MarkAsStable(SplitLines(text), keyword, value))
  }

  /** The commit id line is a complete line when neither part holds a "\n". */
  lemma CommitLineIsLine(keyword: string, value: string)
    requires '\n' !in keyword && '\n' !in value
    ensures IsLine(CommitLine(keyword, value))
  {
    var c := CommitLine(keyword, value);
    forall i | 0 <= i < |c| - 1 ensures c[i] != '\n' {
      if i < |keyword| {
        assert c[i] == keyword[i];
      } else if |keyword| + 2 <= i < |keyword| + 2 + |value| {
        assert c[i] == value[i - |keyword| - 2];
      }
    }
  }

  /** One complete line is rewritten into complete lines. */
  lemma RewriteLineTerminated(line: string, keyword: string, value: string)
    requires IsLine(line) && '\n' !in keyword && '\n' !in value
    ensures Terminated(RewriteLine(line, keyword, value))
  {
    if StartsWith(line, "KEYWORDS") {
      RemoveCharLine(line, '~');
    } else if StartsWith(line, "EAPI") && keyword != "" && value != "" {
      CommitLineIsLine(keyword, value);
    }
  }

  /** Complete lines are rewritten into complete lines. */
  lemma {:induction false} MarkAsStableTerminated(lines: seq<string>, keyword: string, value: string)
    requires Terminated(lines) && '\n' !in keyword && '\n' !in value
    ensures Terminated(MarkAsStable(lines, keyword, value))
    decreases |lines|
  {
    if |lines| > 0 {
      var head := RewriteLine(lines[0], keyword, value);
      var tail := MarkAsStable(lines[1..], keyword, value);
      assert IsLine(lines[0]);
      RewriteLineTerminated(lines[0], keyword, value);
      assert Terminated(lines[1..]) by {
        forall i | 0 <= i < |lines[1..]| ensures IsLine(lines[1..][i]) {
          assert lines[1..][i] == lines[i + 1];
        }
      }
      MarkAsStableTerminated(lines[1..], keyword, value);
      forall i | 0 <= i < |head + tail| ensures IsLine((head + tail)[i]) {
        if i < |head| {
          assert (head + tail)[i] == head[i];
        } else {
          assert (head + tail)[i] == tail[i - |head|];
        }
      }
    }
  }

  /**
   * When the copied file ends in "\n" and neither the keyword nor the value
   * holds one, the lines of the written file are exactly the pieces the
   * rewrite emits, and the written file ends in "\n" too.
   */
  lemma MarkFileLines(text: string, keyword: string, value: string)
    requires EndsInNewline(text) && '\n' !in keyword && '\n' !in value
    ensures SplitLines(MarkFile(text, keyword, value)) == MarkAsStable(SplitLines(text), keyword, value)
    ensures EndsInNewline(MarkFile(text, keyword, value))
  {
    var out := MarkAsStable(SplitLines(text), keyword, value);
    SplitLinesTerminated(text);
    MarkAsStableTerminated(SplitLines(text), keyword, value);
    SplitConcat(out);
    SplitLinesTerminated(Concat(out));
  }

  /** Marking the written file again with the same commit id rewrites it to the same text. */
  lemma MarkFileIdempotent(text: string, keyword: string, value: string)
    requires Compatible(keyword) && EndsInNewline(text) && '\n' !in keyword && '\n' !in value
    ensures MarkFile(MarkFile(text, keyword, value), keyword, value) == MarkFile(text, keyword, value)
  {
    MarkFileLines(text, keyword, value);
    MarkAsStableIdempotent(SplitLines(text), keyword, value);
  }

  /**
   * The line properties, for the lines of the written file: one commit id
   * line per EAPI line (none without a value), each the new one right after
   * an EAPI line; every other line passes through in order with only the
   * '~' of KEYWORDS lines removed.
   */
  lemma MarkFileRewritesLines(text: string, keyword: string, value: string)
    requires Compatible(keyword) && EndsInNewline(text) && '\n' !in keyword && '\n' !in value
    ensures var before := SplitLines(text);
      var after := SplitLines(MarkFile(text, keyword, value));
      && CountPrefixed(after, keyword) == (if value != "" then CountPrefixed(before, "EAPI") else 0)
      && CommitLinesPlaced(after, keyword, value)
      && Others(after, keyword) == StabilizeAll(Others(before, keyword))
      && KeywordsStable(after)
  {
    var before := SplitLines(text);
    MarkFileLines(text, keyword, value);
    CommitLineCount(before, keyword, value);
    CommitLinesFollowEapi(before, keyword, value);
    OtherLinesPassThrough(before, keyword, value);
    KeywordsLinesStable(before, keyword, value);
  }

  /** A text without "\n" is read as one line. */
  lemma UnterminatedText(t: string)
    requires |t| > 0 && '\n' !in t
    ensures SplitLines(t) == [t]
  {
    var n := LineLength(t);
    assert t[n - 1] in t;
    assert t[..n] == t && t[n..] == "";
  }

  /** A complete line read back is that one line. */
  lemma LineText(l: string)
    requires IsLine(l)
    ensures SplitLines(l) == [l]
  {
    LineLengthOfLine(l, "");
    assert l + "" == l;
    assert l[..|l|] == l && l[|l|..] == "";
  }

  /** Text without "\n" followed by a complete line is one complete line. */
  lemma GluedIsLine(a: string, l: string)
    requires '\n' !in a && IsLine(l)
    ensures IsLine(a + l)
  {
    forall i | 0 <= i < |a + l| - 1 ensures (a + l)[i] != '\n' {
      if i < |a| {
        assert (a + l)[i] == a[i];
        assert a[i] in a;
      } else {
        assert (a + l)[i] == l[i - |a|];
      }
    }
  }

  /**
   * A copied file that is a single EAPI line without "\n" gets the commit
   * id glued onto that line: the written file has one line, and it does not
   * start with the keyword.
   */
  lemma GluedCommitLine(eapi: string, keyword: string, value: string)
    requires StartsWith(eapi, "EAPI") && '\n' !in eapi
    requires Compatible(keyword) && keyword != "" && value != ""
    requires '\n' !in keyword && '\n' !in value
    ensures SplitLines(MarkFile(eapi, keyword, value)) == [eapi + CommitLine(keyword, value)]
    ensures !StartsWith(eapi + CommitLine(keyword, value), keyword)
  {
    var c := CommitLine(keyword, value);
    UnterminatedText(eapi);
    var ls: seq<string> := [eapi];
    var cs: seq<string> := [c];
    assert ls[1..] == [] && cs[1..] == [];
    assert !StartsWith(eapi, "KEYWORDS") by { assert eapi[0] == 'E'; }
    assert RewriteLine(eapi, keyword, value) == ls + cs;
    assert MarkAsStable(ls, keyword, value) == RewriteLine(eapi, keyword, value) + MarkAsStable([], keyword, value);
    ConcatAppend(ls, cs);
    assert Concat(ls) == eapi + Concat([]);
    assert Concat(cs) == c + Concat([]);
    assert MarkAsStable(ls, keyword, value) == ls + cs;
    assert MarkFile(eapi, keyword, value) == Concat(ls + cs) == eapi + c;
    CommitLineIsLine(keyword, value);
    GluedIsLine(eapi, c);
    LineText(eapi + c);
    assert (eapi + c)[..4] == eapi[..4];
    if StartsWith(eapi + c, keyword) { PrefixesComparable(eapi + c, keyword, "EAPI"); }
  }
}

=== FILE: overlay.dfy ===
/**
 * The `commit` command for one overlay (the loop body of `main`), the
 * argument check that precedes it, and the pure part of
 * `EBuild.GetCommitId`.
 */
module Overlay {
  import opened Wrappers
  import opened Text
  import Paths
  import opened Ebuild
  import opened Revision
  import opened Branch
  import Publish
  import opened Filters

  /** The commands `main` accepts, with their usage text left out. */
  predicate IsCommand(command: string)
  {
    command == "clean" || command == "commit" || command == "push"
  }

  /**
   * `_CheckSaneArguments`: the usage error `main` dies with, if any. The
   * package flag is the raw colon-separated string; `srcrootIsDir` is
   * `os.path.isdir(srcroot)`.
   */
  function CheckSaneArguments(command: string, packages: string, all: bool, board: string, srcrootIsDir: bool): (r: Option<string>)
    ensures r.None? <==>
      && IsCommand(command)
      && (command == "commit" ==> (packages != "" || all) && board != "")
      && srcrootIsDir
    ensures !IsCommand(command) ==> r == Some(command + " is not a valid command")
    ensures IsCommand(command) && command == "commit" && packages == "" && !all ==>
      r == Some("Please specify at least one package")
    ensures IsCommand(command) && command == "commit" && (packages != "" || all) && board == "" ==>
      r == Some("Please specify a board")
    ensures IsCommand(command) && !srcrootIsDir && (command == "commit" ==> (packages != "" || all) && board != "") ==>
      r == Some("srcroot is not a valid path")
  {
    if !IsCommand(command) then Some(command + " is not a valid command")
    else if packages == "" && command == "commit" && !all then Some("Please specify at least one package")
    else if board == "" && command == "commit" then Some("Please specify a board")
    else if !srcrootIsDir then Some("srcroot is not a valid path")
    else None
  }

  /** Where `GetCommitId` looks for a package's sources: platform/ for chromeos-base, third_party/ otherwise. */
  function CategoryDir(category: string): string
  {
    if category == "chromeos-base" then "platform" else "third_party"
  }

  /** The kernel's sources, used when the kernel ebuild's own subdirectory is not found. */
  const KernelDir := "third_party/kernel/files"

  /**
   * The source directory of a package, or None when it does not exist.
   * `isDir` is `os.path.isdir`.
   */
  function SourceDir(srcroot: string, category: string, subdir: string, isDir: string -> bool): (r: Option<string>)
    ensures var primary := Paths.Join(Paths.Join(srcroot, CategoryDir(category)), subdir);
      && (isDir(primary) ==> r == Some(primary))
      && (!isDir(primary) && subdir != "kernel/" ==> r.None?)
      && (!isDir(primary) && subdir == "kernel/" ==>
            (isDir(Paths.Join(srcroot, KernelDir)) ==> r == Some(Paths.Join(srcroot, KernelDir)))
            && (!isDir(Paths.Join(srcroot, KernelDir)) ==> r.None?))
    ensures r.Some? ==> isDir(r.value)
  {
    var primary := Paths.Join(Paths.Join(srcroot, CategoryDir(category)), subdir);
    var srcdir := if !isDir(primary) && subdir == "kernel/" then Paths.Join(srcroot, KernelDir) else primary;
    if isDir(srcdir) then Some(srcdir) else None
  }

  /** The project name check: the kernel ebuild declares a project name of its own. */
  predicate ProjectAccepted(project: string, actual: string)
  {
    project == actual || project == "chromeos-kernel"
  }

  /** The command that reads the project name of the sources in `srcdir`. */
  function ProjectNameCommand(srcdir: string): string
  {
    "cd " + srcdir + " && git config --get remote.cros.projectname"
  }

  /** The command that reads the commit checked out in `srcdir`. */
  function HeadCommand(srcdir: string): string
  {
    "cd " + srcdir + " && git rev-parse HEAD"
  }

  /**
   * `GetCommitId()` once the ebuild's CROS_WORKON variables are known:
   * `project` and `subdir` are what the shell `eval` prints; `projectOf(d)`
   * and `headOf(d)` are what `ProjectNameCommand(d)` and `HeadCommand(d)`
   * print, or None when the command exits non-zero (`git config` does when
   * the key is unset), which raises before any check.
   */
  function CommitId(e: EBuild, srcroot: string, project: string, subdir: string,
                    isDir: string -> bool, projectOf: string -> Option<string>, headOf: string -> Option<string>)
    : (r: Result<string, Fatal>)
    ensures SourceDir(srcroot, e.category, subdir, isDir).None? ==>
      r == Failure(Die("Cannot find commit id for " + e.path))
    ensures SourceDir(srcroot, e.category, subdir, isDir).Some? ==>
      var srcdir := SourceDir(srcroot, e.category, subdir, isDir).value;
      && (projectOf(srcdir).None? ==> r == Failure(CommandFailed(ProjectNameCommand(srcdir))))
      && (projectOf(srcdir).Some? ==>
            var actual := RStrip(projectOf(srcdir).value);
            && (!ProjectAccepted(project, actual) ==>
                  r == Failure(Die("Project name mismatch for " + UnstablePath(e) + " (" + project + " != " + actual + ")")))
            && (ProjectAccepted(project, actual) && headOf(srcdir).None? ==>
                  r == Failure(CommandFailed(HeadCommand(srcdir))))
            && (ProjectAccepted(project, actual) && headOf(srcdir) == Some("") ==>
                  r == Failure(Die("Missing commit id for " + e.path)))
            && (r.Success? <==> ProjectAccepted(project, actual) && headOf(srcdir).Some? && headOf(srcdir).value != "")
            && (r.Success? ==> r.value == RStrip(headOf(srcdir).value)))
  {
    match SourceDir(srcroot, e.category, subdir, isDir)
    case None => Failure(Die("Cannot find commit id for " + e.path))
    case Some(srcdir) =>
      match projectOf(srcdir)
      case None => Failure(CommandFailed(ProjectNameCommand(srcdir)))
      case Some(printed) =>
        var actual := RStrip(printed);
        if !ProjectAccepted(project, actual) then
          Failure(Die("Project name mismatch for " + UnstablePath(e) + " (" + project + " != " + actual + ")"))
        else
          match headOf(srcdir)
          case None => Failure(CommandFailed(HeadCommand(srcdir)))
          case Some(output) =>
            if output == "" then Failure(Die("Missing commit id for " + e.path)) else Success(RStrip(output))
  }

  /**
   * The "chromeos-kernel" exemption only excuses a mismatched project name:
   * a source directory whose project name is unset still stops the run.
   */
  lemma KernelNeedsProjectName(e: EBuild, srcroot: string, subdir: string,
                               isDir: string -> bool, projectOf: string -> Option<string>, headOf: string -> Option<string>)
    requires SourceDir(srcroot, e.category, subdir, isDir).Some?
    requires projectOf(SourceDir(srcroot, e.category, subdir, isDir).value).None?
    ensures CommitId(e, srcroot, "chromeos-kernel", subdir, isDir, projectOf, headOf).Failure?
    ensures CommitId(e, srcroot, "chromeos-kernel", subdir, isDir, projectOf, headOf).error.CommandFailed?
  {
  }

  /** The local commit (`git commit -am`) made for a promoted package. */
  datatype Commit = Commit(package: string, commitId: string, message: string, staged: seq<GitOp>)

  /** The message of the commit that promotes `package` to `commitId`. */
  function CommitMessage(package: string, commitId: string): string
  {
    "Marking 9999 ebuild for " + package + " with commit " + commitId + " as stable."
  }

  /** The commits in order, one per promoted candidate. */
  function Commits(steps: seq<Option<Commit>>): (cs: seq<Commit>)
    ensures |cs| <= |steps|
    ensures forall c :: c in cs <==> Some(c) in steps
  {
    if |steps| == 0 then []
    else
      var rest := Commits(steps[1..]);
      assert forall c :: Some(c) in steps <==> Some(c) == steps[0] || Some(c) in steps[1..];
      if steps[0].Some? then [steps[0].value] + rest else rest
  }

  /** A step in which a commit was made. */
  predicate Made(step: Option<Commit>)
  {
    step.Some?
  }

  /** `step` made commit `c`. */
  function MadeAs(): (Option<Commit>, Commit) -> bool
  {
    (step: Option<Commit>, c: Commit) => step == Some(c)
  }

  /** The commits of the steps from `from` on are the steps that made one, in order. */
  lemma {:induction false} CommitsFromInOrder(steps: seq<Option<Commit>>, from: nat)
    requires from <= |steps|
    ensures Matches(Commits(steps[from..]), steps, WhereFrom(steps, Made, from), MadeAs())
    decreases |steps| - from
  {
    if from < |steps| {
      CommitsFromInOrder(steps, from + 1);
      assert steps[from..][1..] == steps[from + 1..];
      var head := if Made(steps[from]) then [steps[from].value] else [];
      assert Commits(steps[from..]) == head + Commits(steps[from + 1..]);
      MatchesCons(steps, Made, from, head, Commits(steps[from + 1..]), MadeAs());
    }
  }

  /**
   * `Commits` keeps every commit made, once each and in step order: the
   * `k`-th commit is the one made at the `k`-th step that made one.
   */
  lemma CommitsInOrder(steps: seq<Option<Commit>>)
    ensures var idx := Where(steps, Made);
      && Increasing(idx)
      && |Commits(steps)| == |idx|
      && (forall k :: 0 <= k < |idx| ==> idx[k] < |steps| && steps[idx[k]] == Some(Commits(steps)[k]))
      && (forall i :: 0 <= i < |steps| ==> (i in idx <==> steps[i].Some?))
  {
    CommitsFromInOrder(steps, 0);
    assert steps[0..] == steps;
    WhereSpec(steps, Made);
    var idx := Where(steps, Made);
    forall k | 0 <= k < |idx|
      ensures idx[k] < |steps| && steps[idx[k]] == Some(Commits(steps)[k])
    {
      assert MadeAs()(steps[idx[k]], Commits(steps)[k]);
    }
  }

  /** The packages of the commits, in commit order. */
  function Packages(cs: seq<Commit>): (ps: seq<string>)
    ensures |ps| == |cs| && forall i :: 0 <= i < |cs| ==> ps[i] == cs[i].package
  {
    seq(|cs|, i requires 0 <= i < |cs| => cs[i].package)
  }

  /** `step` is the commit, if any, that promoting `e` to commit `id` makes. */
  predicate Promotes(e: EBuild, id: string, step: Option<Commit>)
  {
    step.Some? ==>
      && step.value.package == e.package
      && step.value.commitId == id
      && step.value.message == CommitMessage(e.package, id)
  }

  /** One promotion: a candidate, its commit id and the files as they are, to the files it leaves. */
  type Promoter = (EBuild, string, Files) -> Result<Rev, Fatal>

  /** The promotion `RevWorkOnEBuild` performs, with `same` deciding whether an ebuild changed. */
  function RevWith(same: DiffEquivalent): Promoter
  {
    (e: EBuild, id: string, fs: Files) => RevWorkOnEBuild(e, id, fs, same)
  }

  /** A promoter that, whenever it reports a change, first stages the new stable ebuild. */
  ghost predicate StagesNewEbuild(promote: Promoter)
  {
    forall e, id, fs :: promote(e, id, fs).Success? && promote(e, id, fs).value.changed ==>
      |promote(e, id, fs).value.staged| > 0 && promote(e, id, fs).value.staged[0] == Add(NewStablePath(e))
  }

  /** `RevWorkOnEBuild` stages the new stable ebuild first whenever it reports a change. */
  lemma RevWithStagesNewEbuild(same: DiffEquivalent)
    ensures StagesNewEbuild(RevWith(same))
  {
    forall e, id, fs | RevWith(same)(e, id, fs).Success? && RevWith(same)(e, id, fs).value.changed
      ensures |RevWith(same)(e, id, fs).value.staged| > 0
      ensures RevWith(same)(e, id, fs).value.staged[0] == Add(NewStablePath(e))
    {
      assert RevWith(same)(e, id, fs) == RevWorkOnEBuild(e, id, fs, same);
    }
  }

  /**
   * The loop over the overlay's candidates: fetch the commit id (given as
   * the result of `GetCommitId` for each candidate), promote, and commit
   * when the new ebuild differs. One step per candidate: the commit made,
   * if any. The first failure stops the loop.
   */
  function RevAll(es: seq<EBuild>, ids: seq<Result<string, Fatal>>, files: Files, promote: Promoter)
    : (r: Result<(Files, seq<Option<Commit>>), Fatal>)
    requires |ids| == |es|
    ensures r.Success? ==>
      && |r.value.1| == |es|
      && (forall i :: 0 <= i < |es| ==> ids[i].Success? && Promotes(es[i], ids[i].value, r.value.1[i]))
    ensures r.Success? && StagesNewEbuild(promote) ==>
      forall i :: 0 <= i < |es| && r.value.1[i].Some? ==>
        |r.value.1[i].value.staged| > 0 && r.value.1[i].value.staged[0] == Add(NewStablePath(es[i]))
    ensures (exists i :: 0 <= i < |es| && ids[i].Failure?) ==> r.Failure?
    decreases |es|
  {
    if |es| == 0 then Success((files, []))
    else match ids[0]
      case Failure(f) => Failure(f)
      case Success(id) =>
        match promote(es[0], id, files)
        case Failure(f) => Failure(f)
        case Success(rev) =>
          match RevAll(es[1..], ids[1..], rev.files, promote)
          case Failure(f) => Failure(f)
          case Success((after, steps)) =>
            assert forall i :: 1 <= i < |es| ==> ids[i] == ids[1..][i - 1] && es[i] == es[1..][i - 1];
            var step := if rev.changed then Some(Commit(es[0].package, id, CommitMessage(es[0].package, id), rev.staged)) else None;
            Success((after, [step] + steps))
  }

  /**
   * The same loop read forwards: the files as the first `k` promotions left
   * them, or the failure that stopped the loop before candidate `k`.
   */
  function FilesBefore(es: seq<EBuild>, ids: seq<Result<string, Fatal>>, files: Files, promote: Promoter, k: nat)
    : Result<Files, Fatal>
    requires |ids| == |es| && k <= |es|
    decreases k, 0
  {
    if k == 0 then Success(files)
    else match Promotion(es, ids, files, promote, k - 1)
      case Failure(f) => Failure(f)
      case Success(rev) => Success(rev.files)
  }

  /** The promotion of candidate `k`, on the files the earlier promotions left. */
  function Promotion(es: seq<EBuild>, ids: seq<Result<string, Fatal>>, files: Files, promote: Promoter, k: nat)
    : Result<Rev, Fatal>
    requires |ids| == |es| && k < |es|
    decreases k, 1
  {
    match FilesBefore(es, ids, files, promote, k)
    case Failure(f) => Failure(f)
    case Success(before) =>
      match ids[k]
      case Failure(f) => Failure(f)
      case Success(id) => promote(es[k], id, before)
  }

  /** Promoting candidate `k` wrote an ebuild that differs from the old one. */
  predicate Changes(es: seq<EBuild>, ids: seq<Result<string, Fatal>>, files: Files, promote: Promoter, k: nat)
    requires |ids| == |es| && k < |es|
  {
    Promotion(es, ids, files, promote, k).Success? && Promotion(es, ids, files, promote, k).value.changed
  }

  /** Once the loop has stopped, it stays stopped. */
  lemma {:induction false} FilesBeforeStops(es: seq<EBuild>, ids: seq<Result<string, Fatal>>, files: Files,
                                            promote: Promoter, k: nat, m: nat)
    requires |ids| == |es| && k <= m <= |es|
    requires FilesBefore(es, ids, files, promote, k).Failure?
    ensures FilesBefore(es, ids, files, promote, m).Failure?
    decreases m - k
  {
    if k < m {
      assert Promotion(es, ids, files, promote, k).Failure?;
      FilesBeforeStops(es, ids, files, promote, k + 1, m);
    }
  }

  /**
   * After the first promotion, the loop read forwards is the rest of the
   * loop on the files that promotion left.
   */
  lemma {:induction false} PromotionsAfterFirst(es: seq<EBuild>, ids: seq<Result<string, Fatal>>, files: Files,
                                                promote: Promoter, k: nat)
    requires |ids| == |es| && k < |es|
    requires Promotion(es, ids, files, promote, 0).Success?
    ensures var next := Promotion(es, ids, files, promote, 0).value.files;
      && FilesBefore(es, ids, files, promote, k + 1) == FilesBefore(es[1..], ids[1..], next, promote, k)
      && (k + 1 < |es| ==> Promotion(es, ids, files, promote, k + 1) == Promotion(es[1..], ids[1..], next, promote, k))
    decreases k
  {
    if k > 0 {
      PromotionsAfterFirst(es, ids, files, promote, k - 1);
    }
    if k + 1 < |es| {
      assert es[k + 1] == es[1..][k] && ids[k + 1] == ids[1..][k];
    }
  }

  /** The first promotion is the promoter applied to the files as they were. */
  lemma FirstPromotion(es: seq<EBuild>, ids: seq<Result<string, Fatal>>, files: Files, promote: Promoter)
    requires |ids| == |es| > 0 && ids[0].Success?
    ensures Promotion(es, ids, files, promote, 0) == promote(es[0], ids[0].value, files)
  {
    assert FilesBefore(es, ids, files, promote, 0) == Success(files);
  }

  /**
   * The loop as `RevAll` computes it agrees with the loop read forwards on
   * the outcome: it gets through iff every promotion does, and it leaves the
   * files the last promotion left.
   */
  predicate SameOutcome(es: seq<EBuild>, ids: seq<Result<string, Fatal>>, files: Files, promote: Promoter)
    requires |ids| == |es|
  {
    && (RevAll(es, ids, files, promote).Success? <==> FilesBefore(es, ids, files, promote, |es|).Success?)
    && (RevAll(es, ids, files, promote).Success? ==>
          RevAll(es, ids, files, promote).value.0 == FilesBefore(es, ids, files, promote, |es|).value)
  }

  /**
   * `steps` record the promotions read forwards: every promotion gets
   * through, and candidate `i` is committed exactly when its promotion
   * changed the ebuild, staging what that promotion staged.
   */
  predicate StepsFollow(es: seq<EBuild>, ids: seq<Result<string, Fatal>>, files: Files, promote: Promoter,
                        steps: seq<Option<Commit>>)
    requires |ids| == |es| == |steps|
  {
    forall i :: 0 <= i < |es| ==>
      && Promotion(es, ids, files, promote, i).Success?
      && (steps[i].Some? <==> Promotion(es, ids, files, promote, i).value.changed)
      && (steps[i].Some? ==> steps[i].value.staged == Promotion(es, ids, files, promote, i).value.staged)
  }

  /** ... and on each step. */
  predicate SameSteps(es: seq<EBuild>, ids: seq<Result<string, Fatal>>, files: Files, promote: Promoter)
    requires |ids| == |es|
  {
    RevAll(es, ids, files, promote).Success? ==> StepsFollow(es, ids, files, promote, RevAll(es, ids, files, promote).value.1)
  }

  /** The two readings of the loop agree, on the outcome and on every step. */
  lemma {:induction false} RevAllFollowsPromotions(es: seq<EBuild>, ids: seq<Result<string, Fatal>>, files: Files,
                                                   promote: Promoter)
    requires |ids| == |es|
    ensures SameOutcome(es, ids, files, promote) && SameSteps(es, ids, files, promote)
    decreases |es|
  {
    if |es| == 0 {
      assert FilesBefore(es, ids, files, promote, 0) == Success(files);
    } else if ids[0].Success? && promote(es[0], ids[0].value, files).Success? {
      var rev := promote(es[0], ids[0].value, files).value;
      RevAllFollowsPromotions(es[1..], ids[1..], rev.files, promote);
      FirstPromotion(es, ids, files, promote);
      PromotionsAfterFirst(es, ids, files, promote, |es| - 1);
      if RevAll(es, ids, files, promote).Success? {
        var steps := RevAll(es, ids, files, promote).value.1;
        var rest := RevAll(es[1..], ids[1..], rev.files, promote).value.1;
        assert steps[1..] == rest;
        forall i | 1 <= i < |es|
          ensures Promotion(es, ids, files, promote, i) == Promotion(es[1..], ids[1..], rev.files, promote, i - 1)
          ensures steps[i] == rest[i - 1]
        {
          PromotionsAfterFirst(es, ids, files, promote, i - 1);
        }
      }
    } else {
      assert Promotion(es, ids, files, promote, 0).Failure?;
      FilesBeforeStops(es, ids, files, promote, 1, |es|);
    }
  }

  /** What is left for later once the overlay is done. */
  datatype Cleanup =
    | NoWork                                          // no candidates in this overlay
    | CleanStale(board: string, packages: seq<string>)  // `_CleanStalePackages(board, revved)`
    | BranchDeleted                                   // nothing changed: the branch was deleted

  datatype Batch = Batch(repo: Repo, files: Files, commits: seq<Commit>, revved: seq<string>, cleanup: Cleanup)

  /** Why the command stopped: `Die`, or a git command that failed. */
  datatype Abort = Fatal(fatal: Ebuild.Fatal) | Git(error: GitError)

  /**
   * The `commit` command for one overlay: create the stabilizing branch from
   * the tracking branch, promote every candidate, then either clean up the
   * promoted packages or, when nothing changed, delete the branch again.
   */
  function CommitOverlay(repo: Repo, files: Files, overlay: string, board: string, tracking: string,
                         es: seq<EBuild>, ids: seq<Result<string, Fatal>>, same: DiffEquivalent): (r: Result<Batch, Abort>)
    requires |ids| == |es|
    ensures |es| == 0 ==> r == Success(Batch(repo, files, [], [], NoWork))
    ensures |es| > 0 && !CreateBranch(repo, Publish.StableBranchName, tracking).Success? ==> r.Failure? && r.error.Git?
    ensures r.Success? && |es| > 0 ==>
      var b := r.value;
      && |b.revved| == |b.commits| <= |es|
      && (forall i :: 0 <= i < |b.commits| ==> b.revved[i] == b.commits[i].package)
      && (forall c :: c in b.commits ==>
            && c.message == CommitMessage(c.package, c.commitId)
            && (exists i :: 0 <= i < |es| && c.package == es[i].package && ids[i] == Success(c.commitId)))
      && (|b.revved| > 0 <==> b.cleanup.CleanStale?)
      && (|b.revved| > 0 ==>
            && b.cleanup == CleanStale(board, b.revved)
            && OnBranch(b.repo, Publish.StableBranchName)
            && b.repo.branches == repo.branches + {Publish.StableBranchName})
      && (|b.revved| == 0 ==>
            && b.cleanup == BranchDeleted
            && OnBranch(b.repo, tracking)
            && !Exists(b.repo, Publish.StableBranchName)
            && b.repo.branches == repo.branches - {Publish.StableBranchName})
  {
    if |es| == 0 then Success(Batch(repo, files, [], [], NoWork))
    else match CreateBranch(repo, Publish.StableBranchName, tracking)
      case Failure(err) => Failure(Git(err))
      case Success(onBranch) =>
        if !Exists(onBranch, Publish.StableBranchName) then
          Failure(Fatal(Die("Unable to create stabilizing branch in " + overlay)))
        else match RevAll(es, ids, files, RevWith(same))
          case Failure(f) => Failure(Fatal(f))
          case Success((after, steps)) =>
            var commits := Commits(steps);
            CommitsComeFromCandidates(es, ids, steps);
            var revved := Packages(commits);
            if |revved| > 0 then Success(Batch(onBranch, after, commits, revved, CleanStale(board, revved)))
            else match Delete(onBranch, Publish.StableBranchName, tracking)
              case Failure(err) => Failure(Git(err))
              case Success(back) => Success(Batch(back, after, [], [], BranchDeleted))
  }

  /** Every commit of the loop promotes one of the candidates to its commit id. */
  lemma CommitsComeFromCandidates(es: seq<EBuild>, ids: seq<Result<string, Fatal>>, steps: seq<Option<Commit>>)
    requires |ids| == |es| == |steps|
    requires forall i :: 0 <= i < |es| ==> ids[i].Success? && Promotes(es[i], ids[i].value, steps[i])
    ensures forall c :: c in Commits(steps) ==>
      && c.message == CommitMessage(c.package, c.commitId)
      && (exists i :: 0 <= i < |es| && c.package == es[i].package && ids[i] == Success(c.commitId))
  {
    forall c | c in Commits(steps)
      ensures c.message == CommitMessage(c.package, c.commitId)
      ensures exists i :: 0 <= i < |es| && c.package == es[i].package && ids[i] == Success(c.commitId)
    {
      var i :| 0 <= i < |steps| && steps[i] == Some(c);
      assert Promotes(es[i], ids[i].value, steps[i]);
    }
  }

  /**
   * `cs` are the commits of the candidates at `idx`, which are exactly the
   * candidates whose promotion changed the ebuild, in candidate order: each
   * with its candidate's package and commit id and what its promotion
   * staged.
   */
  predicate CommitsAt(es: seq<EBuild>, ids: seq<Result<string, Fatal>>, files: Files, promote: Promoter,
                      cs: seq<Commit>, idx: seq<nat>)
    requires |ids| == |es|
  {
    && Increasing(idx)
    && |idx| == |cs|
    && (forall k :: 0 <= k < |idx| ==>
          && idx[k] < |es|
          && cs[k].package == es[idx[k]].package
          && ids[idx[k]] == Success(cs[k].commitId)
          && Changes(es, ids, files, promote, idx[k])
          && cs[k].staged == Promotion(es, ids, files, promote, idx[k]).value.staged)
    && (forall i :: 0 <= i < |es| ==> (i in idx <==> Changes(es, ids, files, promote, i)))
  }

  /**
   * The commits of steps that follow the promotions are the promotions that
   * changed an ebuild, in candidate order: the `k`-th commit belongs to the
   * `k`-th candidate whose promotion changed its ebuild, with that
   * candidate's package and commit id and what that promotion staged.
   */
  lemma CommitsAreChanges(es: seq<EBuild>, ids: seq<Result<string, Fatal>>, files: Files, promote: Promoter,
                          steps: seq<Option<Commit>>)
    requires |ids| == |es| == |steps|
    requires forall i :: 0 <= i < |es| ==> ids[i].Success? && Promotes(es[i], ids[i].value, steps[i])
    requires StepsFollow(es, ids, files, promote, steps)
    ensures var cs := Commits(steps);
      && (|cs| > 0 <==> exists i :: 0 <= i < |es| && Changes(es, ids, files, promote, i))
      && exists idx: seq<nat> :: CommitsAt(es, ids, files, promote, cs, idx)
  {
    var cs := Commits(steps);
    CommitsInOrder(steps);
    var idx := Where(steps, Made);
    forall k | 0 <= k < |idx|
      ensures idx[k] < |es|
      ensures cs[k].package == es[idx[k]].package
      ensures ids[idx[k]] == Success(cs[k].commitId)
      ensures Changes(es, ids, files, promote, idx[k])
      ensures cs[k].staged == Promotion(es, ids, files, promote, idx[k]).value.staged
    {
      assert Promotes(es[idx[k]], ids[idx[k]].value, steps[idx[k]]);
    }
    forall i | 0 <= i < |es|
      ensures i in idx <==> Changes(es, ids, files, promote, i)
    {
    }
    assert CommitsAt(es, ids, files, promote, cs, idx);
    if exists i :: 0 <= i < |es| && Changes(es, ids, files, promote, i) {
      var i :| 0 <= i < |es| && Changes(es, ids, files, promote, i);
      assert i in idx;
    }
    if |cs| > 0 {
      assert Changes(es, ids, files, promote, idx[0]);
    }
  }

  /** The commits of the loop are the promotions that changed an ebuild, in candidate order. */
  lemma RevAllCommitsChanges(es: seq<EBuild>, ids: seq<Result<string, Fatal>>, files: Files, promote: Promoter)
    requires |ids| == |es|
    ensures RevAll(es, ids, files, promote).Success? ==>
      var cs := Commits(RevAll(es, ids, files, promote).value.1);
      && (|cs| > 0 <==> exists i :: 0 <= i < |es| && Changes(es, ids, files, promote, i))
      && exists idx: seq<nat> :: CommitsAt(es, ids, files, promote, cs, idx)
  {
    if RevAll(es, ids, files, promote).Success? {
      RevAllFollowsPromotions(es, ids, files, promote);
      CommitsAreChanges(es, ids, files, promote, RevAll(es, ids, files, promote).value.1);
    }
  }

  /**
   * A successful `commit` on a non-empty overlay records the loop's commits,
   * which are the promotions that changed an ebuild in candidate order, and
   * the files its last promotion left; it cleans up the stale packages
   * exactly when some promotion changed an ebuild.
   */
  lemma CommitOverlayFollowsPromotions(repo: Repo, files: Files, overlay: string, board: string, tracking: string,
                                       es: seq<EBuild>, ids: seq<Result<string, Fatal>>, same: DiffEquivalent)
    requires |ids| == |es|
    ensures var r := CommitOverlay(repo, files, overlay, board, tracking, es, ids, same);
      var promote := RevWith(same);
      r.Success? && |es| > 0 ==>
        && RevAll(es, ids, files, promote).Success?
        && r.value.commits == Commits(RevAll(es, ids, files, promote).value.1)
        && FilesBefore(es, ids, files, promote, |es|).Success?
        && r.value.files == FilesBefore(es, ids, files, promote, |es|).value
        && (r.value.cleanup.CleanStale? <==> exists i :: 0 <= i < |es| && Changes(es, ids, files, promote, i))
        && exists idx: seq<nat> :: CommitsAt(es, ids, files, promote, r.value.commits, idx)
  {
    var r := CommitOverlay(repo, files, overlay, board, tracking, es, ids, same);
    var promote := RevWith(same);
    if r.Success? && |es| > 0 {
      RevAllFollowsPromotions(es, ids, files, promote);
      RevAllCommitsChanges(es, ids, files, promote);
    }
  }

  /**
   * The loop gets through every candidate when every commit id was found,
   * every 9999 ebuild is there, and no stable candidate is itself some
   * candidate's 9999 ebuild (its removal would hide that ebuild).
   */
  lemma {:induction false} RevAllSucceeds(es: seq<EBuild>, ids: seq<Result<string, Fatal>>, files: Files, same: DiffEquivalent)
    requires |ids| == |es|
    requires forall i :: 0 <= i < |es| ==> ids[i].Success?
    requires forall i :: 0 <= i < |es| ==> UnstablePath(es[i]) in files
    requires forall i, j :: 0 <= i < |es| && 0 <= j < |es| && es[i].isStable ==> es[i].path != UnstablePath(es[j])
    ensures RevAll(es, ids, files, RevWith(same)).Success?
    decreases |es|
  {
    if |es| > 0 {
      var rev := RevWorkOnEBuild(es[0], ids[0].value, files, same).value;
      forall j | 1 <= j < |es|
        ensures UnstablePath(es[j]) in rev.files
      {
        NewPathIsNotLive(es[0], es[j]);
      }
      RevAllSucceeds(es[1..], ids[1..], rev.files, same);
    }
  }

  /**
   * Once the stabilizing branch is created and every candidate is promoted,
   * the overlay's command succeeds: the "Unable to create stabilizing
   * branch" check cannot fire, and deleting the branch again cannot fail
   * unless the tracking branch has the stabilizing branch's own name.
   */
  lemma CommitOverlaySucceeds(repo: Repo, files: Files, overlay: string, board: string, tracking: string,
                              es: seq<EBuild>, ids: seq<Result<string, Fatal>>, same: DiffEquivalent)
    requires |ids| == |es|
    requires tracking != Publish.StableBranchName
    requires CreateBranch(repo, Publish.StableBranchName, tracking).Success?
    requires RevAll(es, ids, files, RevWith(same)).Success?
    ensures CommitOverlay(repo, files, overlay, board, tracking, es, ids, same).Success?
  {
    var onBranch := CreateBranch(repo, Publish.StableBranchName, tracking).value;
    assert IsRef(onBranch, tracking) by { assert IsRef(repo, tracking); }
    assert Delete(onBranch, Publish.StableBranchName, tracking).Success?;
  }

  /**
   * `commit` followed by `push` on the same overlay: the push has work to
   * do exactly when some candidate was promoted.
   */
  method CommitThenPush(repo: Repo, files: Files, overlay: string, board: string, tracking: string,
                        es: seq<EBuild>, ids: seq<Result<string, Fatal>>, same: DiffEquivalent,
                        log: string, dryRun: bool, outcomes: seq<bool>)
    returns (batch: Result<Batch, Abort>, push: Option<Publish.Push>)
    requires |ids| == |es|
    requires |outcomes| == Publish.NumRetries + 1
    ensures batch == CommitOverlay(repo, files, overlay, board, tracking, es, ids, same)
    ensures batch.Success? <==> push.Some?
    ensures batch.Success? && |es| > 0 ==> (push.value.NothingToPush? <==> |batch.value.revved| == 0)
  {
    batch := CommitOverlay(repo, files, overlay, board, tracking, es, ids, same);
    if batch.Failure? {
      return batch, None;
    }
    if |es| > 0 && |batch.value.revved| == 0 {
      assert Publish.StableBranchName != tracking by {
        assert !Exists(batch.value.repo, Publish.StableBranchName);
      }
    }
    var p := Publish.PushChange(batch.value.repo, Publish.StableBranchName, log, dryRun, outcomes);
    push := Some(p);
  }
}

=== FILE: paths.dfy ===
/**
 * POSIX path helpers with the behaviour of Python's `str.rsplit('/', 3)`,
 * `os.path.dirname` and two-argument `os.path.join`.
 */
module Paths {
  import opened Wrappers

  /** The index of the last `c` in `s` (`s.rfind(c)`), if there is one. */
  function LastIndexOf(s: string, c: char): (r: Option<nat>)
    ensures r.Some? ==> r.value < |s| && s[r.value] == c && c !in s[r.value + 1..]
    ensures r.None? ==> c !in s
    decreases |s|
  {
    if |s| == 0 then None
    else if s[|s| - 1] == c then Some(|s| - 1)
    else LastIndexOf(s[..|s| - 1], c)
  }

  /** Splits at the last '/': `(head, tail)` with no '/' in `tail`. */
  function SplitLast(s: string): (r: Option<(string, string)>)
    ensures r.Some? ==> s == r.value.0 + "/" + r.value.1 && '/' !in r.value.1
    ensures r.None? <==> '/' !in s
  {
    match LastIndexOf(s, '/')
    case None => None
    case Some(i) =>
      assert s == s[..i] + "/" + s[i + 1..];
      Some((s[..i], s[i + 1..]))
  }

  lemma SplitLastOfJoin(a: string, b: string)
    requires '/' !in b
    ensures SplitLast(a + "/" + b) == Some((a, b))
  {
    var s := a + "/" + b;
    var r := SplitLast(s);
    assert s[|a|] == '/';
    assert '/' in s;
    var h := r.value.0;
    var t := r.value.1;
    assert |h| == |a|;
    assert h == s[..|a|] == a;
    assert t == s[|a| + 1..] == b;
  }

  /**
   * `path.rsplit('/', 3)` unpacked into four names, as in
   * `unused, category, pkgname, filename = path.rsplit('/', 3)`;
   * `None` is the `ValueError` raised when the path has fewer than three '/'.
   */
  function RSplit3(path: string): (r: Option<(string, string, string, string)>)
    ensures r.Some? ==>
      && path == r.value.0 + "/" + r.value.1 + "/" + r.value.2 + "/" + r.value.3
      && '/' !in r.value.1 && '/' !in r.value.2 && '/' !in r.value.3
  {
    match SplitLast(path)
    case None => None
    case Some((rest, filename)) =>
      match SplitLast(rest)
      case None => None
      case Some((rest', pkgname)) =>
        match SplitLast(rest')
        case None => None
        case Some((unused, category)) => Some((unused, category, pkgname, filename))
  }

  /** Splitting a path built from four components gives the components back. */
  lemma RSplit3OfJoin(unused: string, category: string, pkgname: string, filename: string)
    requires '/' !in category && '/' !in pkgname && '/' !in filename
    ensures RSplit3(unused + "/" + category + "/" + pkgname + "/" + filename)
         == Some((unused, category, pkgname, filename))
  {
    SplitLastOfJoin(unused + "/" + category + "/" + pkgname, filename);
    SplitLastOfJoin(unused + "/" + category, pkgname);
    SplitLastOfJoin(unused, category);
  }

  predicate AllSlashes(s: string)
  {
    forall i :: 0 <= i < |s| ==> s[i] == '/'
  }

  /** `s.rstrip('/')` */
  function RStripSlashes(s: string): (r: string)
    ensures |r| <= |s| && r == s[..|r|]
    ensures |r| > 0 ==> r[|r| - 1] != '/'
    decreases |s|
  {
    if |s| > 0 && s[|s| - 1] == '/' then RStripSlashes(s[..|s| - 1]) else s
  }

  /**
   * `os.path.dirname(p)`: everything up to the last '/', with trailing
   * slashes stripped unless that part consists of slashes only.
   */
  function DirName(p: string): string
  {
    var head := match LastIndexOf(p, '/')
      case None => ""
      case Some(i) => p[..i + 1];
    if head != "" && !AllSlashes(head) then RStripSlashes(head) else head
  }

  /** `os.path.join(a, b)` with two arguments. */
  function Join(a: string, b: string): string
  {
    if |b| > 0 && b[0] == '/' then b
    else if a == "" || a[|a| - 1] == '/' then a + b
    else a + "/" + b
  }

  /** The directory of a file inside a non-empty directory name is that directory. */
  lemma DirNameOfJoin(dir: string, name: string, filename: string)
    requires |name| > 0 && '/' !in name && '/' !in filename
    ensures DirName(dir + "/" + name + "/" + filename) == dir + "/" + name
  {
    var p := dir + "/" + name + "/" + filename;
    var d := dir + "/" + name;
    SplitLastOfJoin(d, filename);
    var i := LastIndexOf(p, '/').value;
    assert p[..i] == d;
    var head := p[..i + 1];
    assert head == d + "/";
    assert head[|head| - 2] == name[|name| - 1] != '/';
    assert RStripSlashes(d) == d by { assert d[|d| - 1] == name[|name| - 1]; }
    assert RStripSlashes(head) == RStripSlashes(d) by { assert head[..|head| - 1] == d; }
  }

  /** Joining a name that has no '/' to a directory ending in a non-slash adds one '/'. */
  lemma JoinName(dir: string, name: string)
    requires |name| > 0 && name[0] != '/'
    requires |dir| > 0 && dir[|dir| - 1] != '/'
    ensures Join(dir, name) == dir + "/" + name
  {
  }
}

=== FILE: publish.dfy ===
/**
 * Publishing the stabilizing branch (`PushChange`): squash-merge it onto a
 * fresh merge branch and push, retrying a bounded number of times. Each
 * attempt runs several git commands; whether an attempt as a whole gets
 * through is an input.
 */
module Publish {
  import Decimal
  import opened Branch

  /** Retries after the first attempt. */
  const NumRetries: nat := 5

  /** Name of the local branch that holds the batch. */
  const StableBranchName := "stabilizing_branch"

  /** Name of the branch the squash merge is made on. */
  const MergeBranchName := "merge_branch"

  datatype Push =
    | NothingToPush
    | Pushed(description: string, attempts: nat, command: string, warnings: seq<string>)
    | Raised(description: string, warnings: seq<string>)

  /** The commit message of the squashed change, given `git log` of the batch. */
  function Description(log: string): (d: string)
    ensures |d| == |log| + 34 && d[34..] == log
    ensures d[..34] == "Marking set of ebuilds as stable\n\n"
  {
    "Marking set of ebuilds as stable\n\n" + log
  }

  /** The push command of a successful attempt. */
  function PushCommand(dryRun: bool): string
  {
    if dryRun then "git push --dry-run" else "git push"
  }

  /** The warning after failed attempt `k` (counted from 0) when a retry follows. */
  function RetryWarning(k: nat): string
  {
    "Failed to push change, performing retry (" + Decimal.FromNat(k + 1) + "/" + Decimal.FromNat(NumRetries) + ")"
  }

  /** The warnings of the first `n` failed attempts. */
  function RetryWarnings(n: nat): (ws: seq<string>)
    ensures |ws| == n
    ensures forall k :: 0 <= k < n ==> ws[k] == RetryWarning(k)
  {
    seq(n, k requires 0 <= k => RetryWarning(k))
  }

  /**
   * `PushChange(stable_branch, tracking_branch)`. `outcomes[k]` says whether
   * attempt `k` gets through; attempts after the first success are never
   * made.
   */
  method PushChange(repo: Repo, stableBranch: string, log: string, dryRun: bool, outcomes: seq<bool>)
    returns (p: Push)
    requires |outcomes| == NumRetries + 1
    ensures !OnBranch(repo, stableBranch) <==> p.NothingToPush?
    ensures p.Pushed? ==>
      && 1 <= p.attempts <= NumRetries + 1
      && outcomes[p.attempts - 1]
      && (forall k :: 0 <= k < p.attempts - 1 ==> !outcomes[k])
      && p.warnings == RetryWarnings(p.attempts - 1)
      && p.description == Description(log)
      && p.command == PushCommand(dryRun)
    ensures p.Raised? <==> OnBranch(repo, stableBranch) && forall k :: 0 <= k < |outcomes| ==> !outcomes[k]
    ensures p.Raised? ==> p.warnings == RetryWarnings(NumRetries) && p.description == Description(log)
  {
    if !OnBranch(repo, stableBranch) {
      return NothingToPush;
    }
    var description := Description(log);
    var warnings: seq<string> := [];
    // attempt `pushTry` is made only after every earlier attempt failed
    var pushTry := 0;
    while true
      invariant 0 <= pushTry <= NumRetries
      invariant forall k :: 0 <= k < pushTry ==> !outcomes[k]
      invariant warnings == RetryWarnings(pushTry)
      decreases NumRetries - pushTry
    {
      if outcomes[pushTry] {
        return Pushed(description, pushTry + 1, PushCommand(dryRun), warnings);
      }
      if pushTry < NumRetries {
        warnings := warnings + [RetryWarning(pushTry)];
      } else {
        return Raised(description, warnings);
      }
      pushTry := pushTry + 1;
    }
  }

  /** The first attempt that gets through, if any: the reference for the retry loop. */
  function FirstSuccess(outcomes: seq<bool>): (r: nat)
    ensures r <= |outcomes|
    ensures r < |outcomes| ==> outcomes[r]
    ensures forall k :: 0 <= k < r ==> !outcomes[k]
  {
    if |outcomes| == 0 || outcomes[0] then 0 else 1 + FirstSuccess(outcomes[1..])
  }

  /** Only the attempts before the first success are retried. */
  method PushAttempts(repo: Repo, stableBranch: string, log: string, dryRun: bool, outcomes: seq<bool>)
    returns (attempts: nat)
    requires |outcomes| == NumRetries + 1
    ensures OnBranch(repo, stableBranch) ==> attempts == if FirstSuccess(outcomes) < |outcomes| then FirstSuccess(outcomes) + 1 else |outcomes|
    ensures !OnBranch(repo, stableBranch) ==> attempts == 0
  {
    var p := PushChange(repo, stableBranch, log, dryRun, outcomes);
    match p
    case NothingToPush => attempts := 0;
    case Pushed(_, n, _, _) => attempts := n;
    case Raised(_, _) => attempts := |outcomes|;
  }
}

=== FILE: revision.dfy ===
/**
 * Promoting a candidate ebuild to its next stable revision
 * (`EBuildStableMarker.RevWorkOnEBuild`). The overlay's files are a map from
 * path to lines; `diff -Bu` is an abstract equivalence of two files.
 */
module Revision {
  import opened Wrappers
  import opened Text
  import Decimal
  import opened Ebuild
  import Marker

  /** The variable that records the upstream commit in a stable ebuild. */
  const CommitKeyword := "CROS_WORKON_COMMIT"

  /** The version given to the first stable ebuild of a package (instead of 9999). */
  const BootstrapVersion := "0.0.1"

  /**
   * The files of the overlay: path to the pieces whose concatenation is the
   * file's text. For a file read with `fileinput` these are its lines; for
   * the ebuild `RevWorkOnEBuild` writes they are the pieces handed to
   * `write` (see `Marker.MarkFileLines` for when the two agree).
   */
  type Files = map<string, seq<string>>

  /** `diff -Bu old new` exits 0: the files differ at most in blank lines. */
  type DiffEquivalent = (seq<string>, seq<string>) -> bool

  /** A change staged in git. */
  datatype GitOp = Add(path: string) | Rm(path: string)

  /**
   * The result of one promotion: whether the new ebuild differs from the old
   * one, its path, the files afterwards, and what was staged.
   */
  datatype Rev = Rev(changed: bool, newPath: string, files: Files, staged: seq<GitOp>)

  /** The 9999 ebuild next to the candidate. */
  function UnstablePath(e: EBuild): string
  {
    e.pathNoVersion + "-9999.ebuild"
  }

  /**
   * The path of the new stable ebuild: the candidate's own version with the
   * next revision, or, for a candidate that is itself the 9999 ebuild,
   * version 0.0.1 with the next revision.
   */
  function NewStablePath(e: EBuild): (p: string)
    ensures EndsWith(p, "r" + Decimal.FromNat(e.currentRevision + 1) + ".ebuild")
    ensures e.isStable ==> StartsWith(p, e.pathNoRevision + "-")
    ensures !e.isStable ==> StartsWith(p, e.pathNoVersion + "-" + BootstrapVersion + "-")
    ensures e.isStable ==> |p| == |e.pathNoRevision + "-"| + |"r" + Decimal.FromNat(e.currentRevision + 1) + ".ebuild"|
    ensures !e.isStable ==>
      |p| == |e.pathNoVersion + "-" + BootstrapVersion + "-"| + |"r" + Decimal.FromNat(e.currentRevision + 1) + ".ebuild"|
  {
    var tail := "r" + Decimal.FromNat(e.currentRevision + 1) + ".ebuild";
    var head := if e.isStable then e.pathNoRevision + "-" else e.pathNoVersion + "-" + BootstrapVersion + "-";
    assert head + tail == (head + "r") + Decimal.FromNat(e.currentRevision + 1) + ".ebuild";
    head + tail
  }

  /** What the diff compares the new ebuild with: the candidate's file, as it is after the new one is written. */
  function OldContent(e: EBuild, written: Files): Option<seq<string>>
  {
    if e.path in written then Some(written[e.path]) else None
  }

  /**
   * `RevWorkOnEBuild(commit_id)`: write the rewritten 9999 ebuild to the new
   * path; if it is diff-equivalent to the candidate, delete it and report no
   * change; otherwise stage it, and for a stable candidate also stage the
   * removal of the old ebuild.
   */
  function RevWorkOnEBuild(e: EBuild, commitId: string, files: Files, same: DiffEquivalent): (r: Result<Rev, Fatal>)
    ensures r.Failure? <==> UnstablePath(e) !in files
    ensures r.Failure? ==> r.error == Die("Missing unstable ebuild: " + UnstablePath(e))
    ensures r.Success? ==>
      var content := Marker.MarkAsStable(files[UnstablePath(e)], CommitKeyword, commitId);
      var previous := OldContent(e, files[NewStablePath(e) := content]);
      && r.value.newPath == NewStablePath(e)
      && (r.value.changed <==> !(previous.Some? && same(previous.value, content)))
      && (!r.value.changed ==> r.value.files == files - {r.value.newPath} && r.value.staged == [])
      && (r.value.changed ==>
            && r.value.staged == [Add(r.value.newPath)] + (if e.isStable then [Rm(e.path)] else [])
            && (e.path != r.value.newPath ==>
                  r.value.newPath in r.value.files && r.value.files[r.value.newPath] == content)
            && (e.isStable ==> e.path !in r.value.files)
            && (!e.isStable ==> r.value.files == files[r.value.newPath := content]))
      && (forall p :: p != r.value.newPath && p != e.path ==>
            (p in r.value.files <==> p in files) && (p in files ==> r.value.files[p] == files[p]))
  {
    var newPath := NewStablePath(e);
    var unstable := UnstablePath(e);
    if unstable !in files then
      Failure(Die("Missing unstable ebuild: " + unstable))
    else
      var content := Marker.MarkAsStable(files[unstable], CommitKeyword, commitId);
      var written := files[newPath := content];
      var previous := OldContent(e, written);
      if previous.Some? && same(previous.value, content) then
        Success(Rev(false, newPath, written - {newPath}, []))
      else
        var staged := [Add(newPath)] + (if e.isStable then [Rm(e.path)] else []);
        var after := if e.isStable then written - {e.path} else written;
        Success(Rev(true, newPath, after, staged))
  }

  /** A name ending in "r<digits>.ebuild" never ends in "-9999.ebuild". */
  lemma RevisionEndingIsNotLive(p: string, digits: string)
    requires |digits| > 0 && Decimal.AllDigits(digits)
    requires EndsWith(p, "r" + digits + ".ebuild")
    ensures !EndsWith(p, "-9999.ebuild")
  {
    var t := "r" + digits + ".ebuild";
    var u := "-9999.ebuild";
    if |p| >= |u| {
      var w := p[|p| - |u|..];
      if |digits| <= 4 {
        var k := |u| - |t|;
        assert w[k] == p[|p| - |t|] == t[0] == 'r';
        assert u[k] != 'r';
      } else {
        assert w[0] == p[|p| - |u|] == t[|t| - |u|] == digits[|digits| - 5];
        assert Decimal.IsDigit(digits[|digits| - 5]);
        assert u[0] == '-';
      }
    }
  }

  /** The new stable ebuild is never the 9999 ebuild of any candidate. */
  lemma NewPathIsNotLive(e: EBuild, e': EBuild)
    ensures NewStablePath(e) != UnstablePath(e')
  {
    RevisionEndingIsNotLive(NewStablePath(e), Decimal.FromNat(e.currentRevision + 1));
    assert EndsWith(UnstablePath(e'), "-9999.ebuild");
  }

  /**
   * Promoting again with the same commit id, from the ebuild the first
   * promotion created, finds nothing to change: the rewrite of the
   * unchanged 9999 ebuild is the file already there.
   */
  lemma RepromoteIsNoChange(e: EBuild, commitId: string, files: Files, same: DiffEquivalent, e2: EBuild)
    requires forall a :: same(a, a)
    requires RevWorkOnEBuild(e, commitId, files, same).Success?
    requires RevWorkOnEBuild(e, commitId, files, same).value.changed
    requires e2.path == NewStablePath(e)
    requires UnstablePath(e2) == UnstablePath(e)
    requires e.isStable ==> e.path != UnstablePath(e)
    ensures var r2 := RevWorkOnEBuild(e2, commitId, RevWorkOnEBuild(e, commitId, files, same).value.files, same);
      r2.Success? && !r2.value.changed && r2.value.staged == []
  {
    var r1 := RevWorkOnEBuild(e, commitId, files, same).value;
    var unstable := UnstablePath(e);
    var content := Marker.MarkAsStable(files[unstable], CommitKeyword, commitId);
    NewPathIsNotLive(e, e);
    assert same(content, content);
    assert e.path != r1.newPath;
    assert r1.files[r1.newPath] == content;
    assert unstable in r1.files && r1.files[unstable] == files[unstable];
    var newPath2 := NewStablePath(e2);
    var written2 := r1.files[newPath2 := content];
    assert OldContent(e2, written2) == Some(content);
  }

  /** Proof plumbing: string concatenation regroups freely. It models nothing of the program. */
  lemma Assoc(a: string, b: string, c: string)
    ensures (a + b) + c == a + (b + c)
  {
  }

  /** `<dir>/<pkgname>-<version>-r<digits>.ebuild`, regrouped as directory plus file name. */
  lemma FileNameInDir(prefix: string, pkgname: string, version: string, digits: string)
    ensures prefix + pkgname + "-" + version + "-r" + digits + ".ebuild"
         == prefix + (pkgname + "-" + version + "-r" + digits + ".ebuild")
  {
    var a := pkgname + "-";
    var b := a + version;
    var c := b + "-r";
    var d := c + digits;
    Assoc(prefix, d, ".ebuild");
    Assoc(prefix, c, digits);
    Assoc(prefix, b, "-r");
    Assoc(prefix, a, version);
    Assoc(prefix, pkgname, "-");
  }

  /** The new stable ebuild sits next to the candidate, named `<pkgname>-<version>-r<n+1>.ebuild`. */
  lemma NewPathInDir(e: EBuild, dir: string, version: string)
    requires e.pathNoVersion == dir + "/" + e.pkgname
    requires e.isStable ==> e.pathNoRevision == e.pathNoVersion + "-" + version
    requires !e.isStable ==> version == BootstrapVersion
    ensures NewStablePath(e) == dir + "/" + StableFileName(e.pkgname, version, e.currentRevision + 1)
  {
    var digits := Decimal.FromNat(e.currentRevision + 1);
    assert NewStablePath(e) == e.pathNoVersion + "-" + version + "-" + ("r" + digits + ".ebuild");
    DashRExt(e.pathNoVersion + "-" + version, digits);
    FileNameInDir(dir + "/", e.pkgname, version, digits);
  }

  /** Proof plumbing: the "-r<digits>.ebuild" suffix regrouped. It models nothing of the program. */
  lemma DashRExt(a: string, b: string)
    ensures a + "-" + ("r" + b + ".ebuild") == a + "-r" + b + ".ebuild"
  {
    assert "-" + "r" == "-r";
    assert a + "-" + ("r" + b + ".ebuild") == a + ("-" + "r") + b + ".ebuild";
  }

  /**
   * The promoted file, read back the way the candidate was read, is the same
   * package with the revision one higher (version 0.0.1 for a first
   * stabilisation), provided `pkgsplit` splits its name the usual way.
   */
  lemma PromotedFileParsesBack(path: string, lines: seq<string>, pkgsplit: Splitter,
                               version: string, newLines: seq<string>)
    requires Parse(path, lines, pkgsplit).Success?
    requires var e := Parse(path, lines, pkgsplit).value;
      && |e.pkgname| > 0 && '/' !in version
      && (e.isStable ==> e.pathNoRevision == e.pathNoVersion + "-" + version)
      && (!e.isStable ==> version == BootstrapVersion)
      && !Contains(e.pkgname + "-" + version + "-r" + Decimal.FromNat(e.currentRevision + 1), ".ebuild")
      && pkgsplit(e.pkgname + "-" + version + "-r" + Decimal.FromNat(e.currentRevision + 1))
         == Some(PkgSplit(e.pkgname, version, "r" + Decimal.FromNat(e.currentRevision + 1)))
    ensures var e := Parse(path, lines, pkgsplit).value;
      var r := Parse(NewStablePath(e), newLines, pkgsplit);
      && r.Success?
      && r.value.category == e.category
      && r.value.pkgname == e.pkgname
      && r.value.package == e.package
      && r.value.pathNoVersion == e.pathNoVersion
      && r.value.currentRevision == e.currentRevision + 1
  {
    var e := Parse(path, lines, pkgsplit).value;
    var unused, filename := ParsedPathShape(path, lines, pkgsplit);
    var n := e.currentRevision + 1;
    var dir := unused + "/" + e.category + "/" + e.pkgname;
    NewPathInDir(e, dir, version);
    ParseStableFileName(unused, e.category, e.pkgname, version, n, newLines, pkgsplit);
  }
}

=== FILE: text.dfy ===
/** The few Python `str` operations the model needs, on `string` (= `seq<char>`). */
module Text {
  import opened Filters

  /** `s.startswith(prefix)` */
  predicate StartsWith(s: string, prefix: string)
  {
    |prefix| <= |s| && s[..|prefix|] == prefix
  }

  /** `s.endswith(suffix)` */
  predicate EndsWith(s: string, suffix: string)
  {
    |suffix| <= |s| && s[|s| - |suffix|..] == suffix
  }

  /** `sub in s` for strings: `sub` occurs somewhere in `s`. */
  predicate Contains(s: string, sub: string)
    decreases |s|
  {
    StartsWith(s, sub) || (|s| > 0 && Contains(s[1..], sub))
  }

  lemma {:induction false} ContainsIff(s: string, sub: string)
    ensures Contains(s, sub) <==> exists i :: 0 <= i <= |s| && StartsWith(s[i..], sub)
    decreases |s|
  {
    if |s| > 0 {
      assert s[0..] == s;
      ContainsIff(s[1..], sub);
      if Contains(s[1..], sub) {
        var i :| 0 <= i <= |s[1..]| && StartsWith(s[1..][i..], sub);
        assert s[1..][i..] == s[i + 1..];
      }
      if !StartsWith(s, sub) && exists i :: 0 <= i <= |s| && StartsWith(s[i..], sub) {
        var i :| 0 <= i <= |s| && StartsWith(s[i..], sub);
        assert i != 0;
        assert s[1..][i - 1..] == s[i..];
      }
    } else {
      assert s[0..] == s;
    }
  }

  /**
   * `s.replace(pat, '')`: every non-overlapping occurrence of `pat`,
   * found scanning left to right, is removed.
   */
  function RemoveAll(s: string, pat: string): (r: string)
    requires |pat| > 0
    ensures |r| <= |s|
    ensures !Contains(s, pat) ==> r == s
    decreases |s|
  {
    if |s| == 0 then s
    else if StartsWith(s, pat) then RemoveAll(s[|pat|..], pat)
    else [s[0]] + RemoveAll(s[1..], pat)
  }

  /** Removing a single character keeps every other character, in order. */
  lemma {:induction false} RemoveCharSpec(s: string, c: char)
    ensures c !in RemoveAll(s, [c])
    ensures forall d :: d != c ==> (d in RemoveAll(s, [c]) <==> d in s)
    ensures c !in s ==> RemoveAll(s, [c]) == s
    decreases |s|
  {
    if |s| > 0 {
      RemoveCharSpec(s[1..], c);
      assert s == [s[0]] + s[1..];
      if StartsWith(s, [c]) {
        assert s[0] == c;
      } else {
        assert s[0] != c;
      }
    }
  }

  /** Any character but `c`. */
  function Other(c: char): char -> bool
  {
    (d: char) => d != c
  }

  lemma {:induction false} RemoveCharFrom(s: string, c: char, from: nat)
    requires from <= |s|
    ensures Picks(RemoveAll(s[from..], [c]), s, WhereFrom(s, Other(c), from))
    decreases |s| - from
  {
    if from < |s| {
      RemoveCharFrom(s, c, from + 1);
      var t := s[from..];
      assert t[0] == s[from] && t[1..] == s[from + 1..];
      assert StartsWith(t, [c]) <==> s[from] == c;
      PicksCons(s, Other(c), from, RemoveAll(s[from + 1..], [c]));
    }
  }

  /**
   * Removing a single character keeps exactly the other characters, in
   * order and with their multiplicity: the `k`-th character left is the
   * `k`-th character of `s` that is not `c`.
   */
  lemma RemoveCharInOrder(s: string, c: char)
    ensures Picks(RemoveAll(s, [c]), s, Where(s, Other(c)))
  {
    RemoveCharFrom(s, c, 0);
    assert s[0..] == s;
  }

  /** Removing a character the prefix does not contain leaves the prefix in place. */
  lemma {:induction false} RemoveCharKeepsPrefix(p: string, t: string, c: char)
    requires c !in p
    ensures RemoveAll(p + t, [c]) == p + RemoveAll(t, [c])
    decreases |p|
  {
    if |p| > 0 {
      assert (p + t)[0] == p[0];
      assert !StartsWith(p + t, [c]);
      assert (p + t)[1..] == p[1..] + t;
      RemoveCharKeepsPrefix(p[1..], t, c);
      assert p == [p[0]] + p[1..];
    } else {
      assert p + t == t;
    }
  }

  /** `s + pat` with no occurrence of `pat` starting inside `s` loses exactly its tail. */
  lemma {:induction false} RemoveTrailing(s: string, pat: string)
    requires |pat| > 0
    requires forall i :: 0 <= i < |s| ==> !StartsWith((s + pat)[i..], pat)
    ensures RemoveAll(s + pat, pat) == s
    decreases |s|
  {
    if |s| == 0 {
      assert s + pat == pat;
      assert pat[|pat|..] == [];
    } else {
      assert (s + pat)[0..] == s + pat;
      assert !StartsWith(s + pat, pat);
      assert (s + pat)[1..] == s[1..] + pat;
      forall i | 0 <= i < |s[1..]|
        ensures !StartsWith((s[1..] + pat)[i..], pat)
      {
        assert (s[1..] + pat)[i..] == (s + pat)[i + 1..];
      }
      RemoveTrailing(s[1..], pat);
      assert s == [s[0]] + s[1..];
    }
  }

  /** The ASCII characters `str.rstrip()` treats as whitespace. */
  predicate IsSpace(c: char)
  {
    c == ' ' || c == '\t' || c == '\n' || c == '\r' || c == '\U{000B}' || c == '\U{000C}'
  }

  /** `str.rstrip()`: drop trailing whitespace. */
  function RStrip(s: string): (r: string)
    ensures |r| <= |s| && r == s[..|r|]
    ensures |r| > 0 ==> !IsSpace(r[|r| - 1])
    ensures forall i :: |r| <= i < |s| ==> IsSpace(s[i])
  {
    if |s| > 0 && IsSpace(s[|s| - 1]) then RStrip(s[..|s| - 1]) else s
  }

  /** Removing a single character works piece by piece. */
  lemma {:induction false} RemoveCharAppend(a: string, b: string, c: char)
    ensures RemoveAll(a + b, [c]) == RemoveAll(a, [c]) + RemoveAll(b, [c])
    decreases |a|
  {
    if |a| == 0 {
      assert a + b == b;
    } else {
      assert (a + b)[0] == a[0];
      assert StartsWith(a + b, [c]) <==> StartsWith(a, [c]);
      assert (a + b)[1..] == a[1..] + b;
      RemoveCharAppend(a[1..], b, c);
    }
  }

  /**
   * The length of the first line of a file's text: up to and including its
   * first "\n", or the whole text when it holds none.
   */
  function LineLength(t: string): (n: nat)
    requires |t| > 0
    ensures 0 < n <= |t|
    ensures forall i :: 0 <= i < n - 1 ==> t[i] != '\n'
    ensures t[n - 1] == '\n' || n == |t|
    decreases |t|
  {
    if t[0] == '\n' || |t| == 1 then 1 else 1 + LineLength(t[1..])
  }

  /** A complete line: it ends in "\n" and holds no other. */
  predicate IsLine(l: string)
  {
    |l| > 0 && l[|l| - 1] == '\n' && forall i :: 0 <= i < |l| - 1 ==> l[i] != '\n'
  }

  /** Every line of the list is complete. */
  predicate Terminated(ls: seq<string>)
  {
    forall i :: 0 <= i < |ls| ==> IsLine(ls[i])
  }

  /** Text whose last line, if any, is complete. */
  predicate EndsInNewline(t: string)
  {
    |t| == 0 || t[|t| - 1] == '\n'
  }

  /**
   * Iterating over a text file: each line keeps its "\n", and a last line
   * without one is yielded as it stands.
   */
  function SplitLines(t: string): (ls: seq<string>)
    decreases |t|
  {
    if |t| == 0 then [] else [t[..LineLength(t)]] + SplitLines(t[LineLength(t)..])
  }

  /** Writing lines one after another: the file's text is their concatenation. */
  function Concat(ls: seq<string>): string
    decreases |ls|
  {
    if |ls| == 0 then "" else ls[0] + Concat(ls[1..])
  }

  lemma {:induction false} ConcatAppend(a: seq<string>, b: seq<string>)
    ensures Concat(a + b) == Concat(a) + Concat(b)
    decreases |a|
  {
    if |a| == 0 {
      assert a + b == b;
    } else {
      assert (a + b)[1..] == a[1..] + b;
      ConcatAppend(a[1..], b);
    }
  }

  /** Writing out the lines read from a text gives the text back. */
  lemma {:induction false} ConcatSplit(t: string)
    ensures Concat(SplitLines(t)) == t
    decreases |t|
  {
    if |t| > 0 {
      var n := LineLength(t);
      ConcatSplit(t[n..]);
      assert t[..n] + t[n..] == t;
    }
  }

  /** The first line of a text that starts with a complete line is that line. */
  lemma LineLengthOfLine(l: string, rest: string)
    requires IsLine(l)
    ensures LineLength(l + rest) == |l|
  {
    var t := l + rest;
    var n := LineLength(t);
    assert t[|l| - 1] == '\n';
    if n < |l| {
      assert t[n - 1] == l[n - 1];
    }
  }

  /** Reading back complete lines that were written out gives the same lines. */
  lemma {:induction false} SplitConcat(ls: seq<string>)
    requires Terminated(ls)
    ensures SplitLines(Concat(ls)) == ls
    decreases |ls|
  {
    if |ls| > 0 {
      var t := Concat(ls);
      assert t == ls[0] + Concat(ls[1..]);
      LineLengthOfLine(ls[0], Concat(ls[1..]));
      assert t[..|ls[0]|] == ls[0];
      assert t[|ls[0]|..] == Concat(ls[1..]);
      assert Terminated(ls[1..]) by {
        forall i | 0 <= i < |ls[1..]| ensures IsLine(ls[1..][i]) {
          assert ls[1..][i] == ls[i + 1];
        }
      }
      SplitConcat(ls[1..]);
    }
  }

  lemma TerminatedCons(l: string, ls: seq<string>)
    ensures Terminated([l] + ls) <==> IsLine(l) && Terminated(ls)
  {
    if IsLine(l) && Terminated(ls) {
      forall i | 0 <= i < |[l] + ls| ensures IsLine(([l] + ls)[i]) {
        if i > 0 { assert ([l] + ls)[i] == ls[i - 1]; }
      }
    }
    if Terminated([l] + ls) {
      assert IsLine(([l] + ls)[0]);
      forall i | 0 <= i < |ls| ensures IsLine(ls[i]) {
        assert ([l] + ls)[i + 1] == ls[i];
      }
    }
  }

  /** The first line of a text is complete and the rest ends in "\n" exactly when the text does. */
  lemma FirstLineComplete(t: string)
    requires |t| > 0
    ensures var n := LineLength(t);
      IsLine(t[..n]) && EndsInNewline(t[n..]) <==> EndsInNewline(t)
  {
    var n := LineLength(t);
    if n == |t| {
      assert t[..n] == t;
    } else {
      assert t[n..][|t[n..]| - 1] == t[|t| - 1];
      assert IsLine(t[..n]);
    }
  }

  /** Every line read from a text is complete exactly when the text ends in "\n" or is empty. */
  lemma {:induction false} SplitLinesTerminated(t: string)
    ensures Terminated(SplitLines(t)) <==> EndsInNewline(t)
    decreases |t|
  {
    if |t| > 0 {
      var n := LineLength(t);
      SplitLinesTerminated(t[n..]);
      TerminatedCons(t[..n], SplitLines(t[n..]));
      FirstLineComplete(t);
    }
  }

  /** Removing a character other than "\n" from a complete line leaves a complete line. */
  lemma RemoveCharLine(l: string, c: char)
    requires IsLine(l) && c != '\n'
    ensures IsLine(RemoveAll(l, [c]))
  {
    var body := l[..|l| - 1];
    assert l == body + "\n";
    RemoveCharAppend(body, "\n", c);
    assert RemoveAll("\n", [c]) == "\n";
    assert '\n' !in body;
    RemoveCharSpec(body, c);
    var r := RemoveAll(body, [c]);
    assert RemoveAll(l, [c]) == r + "\n";
    assert forall i :: 0 <= i < |r| ==> r[i] in r;
  }
}

=== FILE: wrappers.dfy ===
/** Option and Result values used in place of Python's None and exceptions. */
module Wrappers {

  datatype Option<+T> = None | Some(value: T)

  datatype Result<+R, +E> = Success(value: R) | Failure(error: E)
}
